=== FILE: README.md ===
# Deep Research Assistant: a Dafny model of its text and retrieval core

This project models the pure logic inside the Deep Research Assistant, a
Streamlit application that collects documents, cuts them into chunks, embeds and
indexes the chunks, and answers questions over them with a language model. The
model covers five pieces of that logic:

- **Chunker** (`EmbeddingService.chunk_text`) is a sliding window over the text.
  When a sentence terminator (`.`, `!`, `?`) lies in the scan range, from the
  raw cut's own index back to just above `max(start + chunk_size//2, cut - 100)`,
  the cut moves to just after the nearest one, which can be one past the raw
  cut. The next window starts `overlap` characters before the cut, and each
  window's slice is stripped and kept when non-empty.
- **ChunkRecords** (`process_documents_for_embedding`) turns documents into
  numbered chunk records that carry their document's provenance.
- **Ranking** and **VectorStore** (`VectorStore`) cover the embedding store as a
  state machine: init, `create_index`, `add_documents`, `search`, `get_stats`,
  `clear`, and save/load to a session snapshot. The flat L2 index is modelled as
  exhaustive k-nearest-neighbour search by squared Euclidean distance.
- **Gemini** (`GeminiClient`) covers:
  - packing rendered sources into the answer prompt under a character budget;
  - rendering documents for a summary;
  - the digest sent when asking for follow-up questions;
  - parsing the model's numbered list back into at most five questions.
- **Parser** (`ContentParser.clean_text`) collapses whitespace, applies three
  regular-expression substitutions, and strips the result.

Supporting modules:

- `Wrappers` holds `Option`, which stands for Python's `None`.
- `Documents` treats a document dict as `map<string, string>`, with `Get` modelling `dict.get`.
- `Text` models Python's string whitespace, `str.strip`, `str.split` and `str.join`.

The language model is a parameter `llm: string -> string`: whatever it answers for a prompt.

Each operation is a pure function with a contract. The loops of the chunker,
the record builder and the context packer are also written as methods and proved
equal to their functions: `ChunkTextLoop`, `FindCut`, `ProcessDocumentsLoop`,
`NumberChunks` and `PackLoop`. The loops that build the summary entries, the
digest lines and the question list only map or filter a list, and are modelled
as sequence comprehensions (`Entries`, `DigestLines`, `Candidates`) without a
method. Lemmas relate the operations to independent characterisations, covering:

- which windows exist and where their cuts fall;
- that search returns the nearest documents;
- that packing takes the longest prefix that fits;
- that question parsing is sound and complete over the reply's lines;
- that `clean_text` is collapse-then-strip, keeps the words of its input
  separated by single spaces, and is idempotent.

## Model

| member | source | states |
|---|---|---|
| `Chunker.ChunkText` | services/embeddings.py:57-95 | A text no longer than `chunk_size` comes back as the single unstripped chunk `[text]`, so `""` gives `[""]`. On the long-text path every chunk is non-empty, has no surrounding whitespace, and holds at most `chunk_size + 1` characters. |
| `Chunker.ChunkTextLoop` | services/embeddings.py:69-95 | The source's early return and `while` loop compute exactly the chunks `ChunkText` defines. |
| `Chunker.CollectChunks` | services/embeddings.py:72-95 | The `while` loop appends the stripped slice of each successive window when it is non-empty, and stops after the window whose next start lies past the text. |
| `Chunker.FindCut` | services/embeddings.py:76-84 | The backward `for` scan with its `break` ends the window where `WindowEnd` does. |
| `Chunker.WindowEnd` | services/embeddings.py:76-84 | A window advances at least `min(chunk_size, max(chunk_size//2, chunk_size - 100) + 2)` and ends at most `chunk_size + 1` after its start, because the scan begins at index `end` itself. A raw cut at or past the end of the text is left alone. |
| `Chunker.CutPastRawEnd` | services/embeddings.py:79-84 | With chunk size 6, the first window of `"abcd.f.hijkl"` ends at 7, just past the terminator at the raw cut's own index 6, not after the earlier one at index 4. |
| `Chunker.ScanBackLast` | services/embeddings.py:81-84 | The scan finds the last terminator in its range. It finds none only when the range holds none. |
| `Chunker.WindowEndCut` | services/embeddings.py:79-84 | Inside the text, the cut either stays at `start + chunk_size` with no terminator in reach, or lands just after a terminator. That terminator lies above `max(start + chunk_size//2, end - 100)` and has none after it up to the raw cut. |
| `Chunker.Windows` | services/embeddings.py:73-93 | The loop's windows start with the window at 0, ending at its cut. |
| `Chunker.WindowAt` | services/embeddings.py:73-93 | Every window starts inside the text and ends at its cut. Each window but the last is followed by one starting `overlap` before its cut. The last window's next start lies past the text. |
| `Chunker.WindowBounds` | services/embeddings.py:75-93 | Each window advances at least `MinStep` and spans at most `chunk_size + 1`. With `overlap` below that step, every next start lies past the current one, so the loop terminates. |
| `Chunker.DefaultOverlapBound` | services/embeddings.py:57 | With the default overlap 200, the step bound holds exactly when `chunk_size >= 299`. |
| `Chunker.StartsIncrease` | services/embeddings.py:90-93 | Consecutive window starts strictly increase. |
| `Chunker.Slice` | services/embeddings.py:86 | `text[start:end]` with Python's clamping: the ordinary slice when the bounds lie in the text, never longer than the window. |
| `Chunker.Chunk` | services/embeddings.py:86 | A window's chunk has no surrounding whitespace and is no longer than the window. |
| `Chunker.ChunkIsStrip` | services/embeddings.py:86 | A window's chunk is exactly the strip of its slice. |
| `Chunker.ChunkTextFromWindows` | services/embeddings.py:75-93 | On the long-text path, every chunk is the chunk of one of the loop's windows. Every window with a non-blank slice contributes its chunk. |
| `Chunker.WindowsCover` | services/embeddings.py:73-93 | With a non-negative overlap, every position of the text lies inside some window. |
| `Chunker.TailWindowsContained` | services/embeddings.py:79-93 | After the first window whose cut reaches the end of the text, every later window starts further on and also reaches the end. Its chunk comes from a tail of that window's slice. |
| `Chunker.AtMostOneTailWindow` | services/embeddings.py:90-93 | With `2 * overlap <= chunk_size`, at most one window follows the first window that reaches the end. The default 1000/200 qualifies. |
| `Chunker.ChunkEndsAtTerminator` | services/embeddings.py:82-86 | When a window's cut moved to just after a terminator, its chunk ends with that terminator. |
| `Chunker.ChunkEmptyIff` | services/embeddings.py:86-88 | A window's chunk is dropped exactly when its slice is all whitespace. |
| `Chunker.ChunkTextNonEmpty` | services/embeddings.py:69-95 | With a non-negative overlap, a text with a non-whitespace character always yields at least one chunk. |
| `Chunker.ChunkTextEmptyIff` | services/embeddings.py:69-95 | With a non-negative overlap, the result is empty exactly when the text is longer than `chunk_size` and all whitespace. |
| `ChunkRecords.DocumentRecords` | services/embeddings.py:110-133 | A document without content yields no records. Otherwise it yields one record per chunk of its content under the default overlap, in chunk order. Each record has `chunk_id` equal to its position, `total_chunks` equal to the count, non-empty content, and the document's title, url, source and metadata, each defaulting to `''`. |
| `ChunkRecords.DocumentRecordsEmptyIff` | services/embeddings.py:111-116 | A document yields no records exactly when its content is missing, empty, or a long whitespace run. A short non-empty content is one record holding it unchanged, numbered 0 of 1. |
| `ChunkRecords.ProcessDocuments` | services/embeddings.py:97-135 | Every processed record has non-empty content and `chunk_id < total_chunks`. |
| `ChunkRecords.ProcessDocumentsAppend` | services/embeddings.py:108-135 | Processing a concatenation of document lists gives the records of the first list followed by those of the second. The output is therefore in document order, then chunk order. |
| `ChunkRecords.ProcessDocumentsProvenance` | services/embeddings.py:110-133 | Every output record carries the provenance of some input document that has content. |
| `ChunkRecords.ProcessDocumentsLoop` | services/embeddings.py:108-135 | The loop over documents, with its `continue` for empty content, produces exactly `ProcessDocuments`. |
| `ChunkRecords.DocumentRecordsLoop` | services/embeddings.py:111-133 | One iteration of that loop produces exactly the document's records. |
| `ChunkRecords.NumberChunks` | services/embeddings.py:118-133 | The `enumerate` loop makes record `i` from chunk `i`, with `total_chunks` equal to the number of chunks. |
| `Ranking.SquaredL2` | services/vector_store.py:36 | The flat L2 index's distance is never negative. |
| `Ranking.SquaredL2ZeroIff` | services/vector_store.py:36 | The distance is zero exactly between equal vectors. |
| `Ranking.SquaredL2Symmetric` | services/vector_store.py:36 | The distance does not depend on argument order. |
| `Ranking.Similarity` | services/vector_store.py:106 | `1 / (1 + d)` lies in `(0, 1]` and equals 1 exactly at distance 0. |
| `Ranking.SimilarityAntitone` | services/vector_store.py:106 | A strictly larger distance gives a strictly smaller similarity, and conversely. Equal similarities mean equal distances. |
| `Ranking.Insert` | services/vector_store.py:97-100 | Inserting a position into a ranking adds exactly that position: the multiset grows by it. |
| `Ranking.InsertRanked` | services/vector_store.py:97-100 | Inserting a new position into a ranked list keeps it ranked: nearer first, ties by position. |
| `Ranking.SortIndices` | services/vector_store.py:97-100 | Ranking positions permutes them. |
| `Ranking.SortIndicesRanked` | services/vector_store.py:97-100 | Ranking distinct positions puts them in ranked order. |
| `Ranking.RankComplete` | services/vector_store.py:97-100 | Every stored position appears in the full ranking. |
| `Ranking.TopK` | services/vector_store.py:97-100 | The search returns `min(k, n)` positions for positive `k`, and none otherwise. |
| `Ranking.TopKIsNearest` | services/vector_store.py:97-107 | The top `k` are distinct positions in ascending distance. Every position left out is at least as far as every position returned. |
| `VectorStore.Init` | services/vector_store.py:13-17 | A new store has no index, no documents and no dimension, and satisfies the store invariant. |
| `VectorStore.CreateIndex` | services/vector_store.py:19-49 | An empty batch returns `False` and changes nothing, whether it stands for no documents or for the embedding service's failure array. Otherwise the index holds exactly the batch, the documents are replaced by the new ones, the dimension is the batch's width, and the invariant holds. |
| `VectorStore.AddDocuments` | services/vector_store.py:51-74 | The call succeeds exactly when the batch is non-empty and, with an index, has the index's width. Without an index this is `create_index`. With one, the empty failure array and a batch of the wrong width return `False` and change nothing, since the vector add fails before the extend. Otherwise vectors and documents are appended after the existing ones, in order, and the dimension is kept. The invariant is preserved in every case. |
| `VectorStore.GetStats` | services/vector_store.py:115-122 | The stats read the state: document count, dimension, whether an index exists, and index size. The index size equals the document count. |
| `VectorStore.SearchPositions` | services/vector_store.py:87-100 | No results come back for a store without index or documents, a non-positive `top_k`, or a query of the wrong width. Otherwise `min(top_k, n)` positions of stored documents come back. |
| `VectorStore.Search` | services/vector_store.py:76-109 | Each result is the stored document at a reported position, paired with the similarity `1/(1+d)` of its distance, which lies in `(0, 1]`. |
| `VectorStore.SearchIsNearest` | services/vector_store.py:97-107 | Results are distinct documents in ascending distance with non-increasing similarity. No document left out is nearer than any document returned. |
| `VectorStore.Save` | services/vector_store.py:124-144 | Saving without an index leaves the session as it was. With an index, the session holds the store's documents and dimension. |
| `VectorStore.Load` | services/vector_store.py:146-168 | Without saved data, loading returns `False` and changes nothing. Otherwise it returns `True` and restores an index with the saved documents and dimension. |
| `VectorStore.SaveLoadRoundTrip` | services/vector_store.py:127-160 | Saving a store with an index and loading the result into any store restores it exactly, and so reproduces its stats. |
| `VectorStore.Clear` | services/vector_store.py:170-179 | Clearing gives the initial state, whatever the store held, and drops the saved session data. Clearing twice is therefore the same as clearing once. |
| `VectorStore.TwoDocumentExample` | services/vector_store.py:51-109 | Take a store built from the one-document batches `[0,0]` and `[3,4]`. It reports two documents of dimension 2, rejects a batch of width 3 and the empty failure array, and answers query `[3,3]` with the nearer document at similarity 0.5. |
| `Gemini.UrlSuffix` | services/gemini_client.py:112-113 | An empty url adds nothing. A non-empty url appears whole between `" ("` and `")"`, each at its place. |
| `Gemini.RenderSource` | services/gemini_client.py:107-114 | A rendered source adds 19 fixed characters to its title (default `Untitled`), url suffix and content. |
| `Gemini.RenderSourceLayout` | services/gemini_client.py:107-114 | A rendered source is `"Source: "`, the title (default `Untitled`), the url suffix, `"\nContent: "`, the content and a final newline, in that order and each at its place. |
| `Gemini.PackFrom` | services/gemini_client.py:116-120 | Greedy packing never takes more texts than it is given. |
| `Gemini.PackFromSpec` | services/gemini_client.py:106-120 | Packing takes a prefix of the texts whose total, with what was already used, fits the budget. The first text left out would overflow it. |
| `Gemini.PackContext` | services/gemini_client.py:103-120 | The context holds at most one part per document. |
| `Gemini.PackContextSpec` | services/gemini_client.py:103-120 | The context is the renderings of a prefix of the documents, with total length within `max_context_length`. Packing stops at the first document that would overflow, even if a later one would fit. |
| `Gemini.ContextLength` | services/gemini_client.py:116-122 | The `"\n---\n"` separators are not counted against the budget. The joined context is exactly five characters per separator longer than the packed parts, so it can exceed the budget by that much. |
| `Gemini.PackLoop` | services/gemini_client.py:103-120 | The `for` loop with its running length and `break` computes exactly the greedy packing. |
| `Gemini.PackContextLoop` | services/gemini_client.py:106-120 | Rendering each document, then running the loop, gives the packed context. |
| `Gemini.AnswerPrompt` | services/gemini_client.py:99-133 | Without context documents the prompt is exactly `"Question: " + question`. Otherwise it is the fixed header, the joined context, the question marker, the question and the closing instructions, each at its stated place. |
| `Gemini.Truncate` | services/gemini_client.py:159-160 | Content within the limit is kept. Longer content becomes a prefix of exactly the limit's length followed by `"..."`. |
| `Gemini.SummaryEntry` | services/gemini_client.py:154-165 | A summary entry is bounded by its title, url suffix and 503 characters of content. |
| `Gemini.SummaryPrompt` | services/gemini_client.py:153-182 | The prompt is the fixed opening, the topic, the fixed lead-in, the entries of the first ten documents joined by `"\n\n---\n\n"`, and the fixed instructions, each at its stated place. |
| `Gemini.SummaryUsesFirstTen` | services/gemini_client.py:153-169 | Documents after the tenth do not affect the summary. |
| `Gemini.SummaryContentBound` | services/gemini_client.py:158-160 | Summary content never exceeds 503 characters. It is left unchanged exactly when it has at most 500 characters, or exactly 503 ending in `"..."`. |
| `Gemini.DigestLine` | services/gemini_client.py:203-205 | A digest line is `"- "`, the title, `": "`, the first 300 characters of content (all of a shorter one) and `"..."`, each at its place. The ellipsis is there even for short content. |
| `Gemini.FollowUpPrompt` | services/gemini_client.py:202-220 | The prompt is the fixed opening, the topic, the fixed lead-in, the digest lines of the first five documents joined by newlines, and the request for a numbered list, each at its stated place. |
| `Gemini.FollowUpUsesFirstFive` | services/gemini_client.py:202-211 | Documents after the fifth do not affect the follow-up prompt. |
| `Gemini.QuestionOf` | services/gemini_client.py:228-235 | A line yields a question only if its stripped text starts with a digit or `-`. The question is then non-empty, ends with `?`, and has no surrounding whitespace. |
| `Gemini.Candidates` | services/gemini_client.py:225-235 | Every collected question is non-empty, ends with `?` and is stripped, with at most one per line. |
| `Gemini.CandidatesAppend` | services/gemini_client.py:228-235 | Reading the lines in two parts collects the questions of the first part, then those of the second. |
| `Gemini.CandidatesFromLines` | services/gemini_client.py:226-235 | The collected questions are exactly the lines' questions: each comes from some line, and every line's question is collected. |
| `Gemini.ParseQuestions` | services/gemini_client.py:224-237 | Exactly `min(5, n)` questions come back, where `n` questions are found on the reply's lines. Each is a valid question, and they are the first ones found, in order. |
| `Gemini.FollowUpQuestions` | services/gemini_client.py:197-237 | No documents give no questions. In every case at most five questions come back, each non-empty and ending with `?`. |
| `Gemini.BulletedQuestion` | services/gemini_client.py:229-235 | A bulleted line `- q` yields exactly `q`, hyphens inside `q` included, under both the code as written and the corrected reading. |
| `Gemini.NumberedQuestionWithoutHyphen` | services/gemini_client.py:229-235 | As written, a numbered line `d. q` yields exactly `q` when `q` has no hyphen. |
| `Gemini.HyphenCutsNumberedQuestion` | services/gemini_client.py:232-233 | As written, a numbered line `d. q` whose question contains a hyphen never yields `q`: the question is cut at the hyphen. |
| `Gemini.IntendedQuestionOf` | services/gemini_client.py:228-235 | The corrected reading yields only stripped, non-empty questions ending with `?`. |
| `Gemini.IntendedKeepsNumberedQuestion` | services/gemini_client.py:229-235 | Under the corrected reading, a numbered line `d. q` yields exactly `q`, hyphens included. |
| `Gemini.HyphenExample` | services/gemini_client.py:232-233 | `"1. Is e-mail safe?"` is read as `"mail safe?"` as written, and as `"Is e-mail safe?"` under the corrected reading. |
| `Parser.Collapse` | services/parser.py:151 | After collapsing, every whitespace character is a plain space with no neighbour of its kind. The non-whitespace characters are kept in order. |
| `Parser.Words` | services/parser.py:151 | The words of a text are its maximal runs of non-whitespace, in order. Each is non-empty and holds no whitespace. |
| `Parser.CollapseWords` | services/parser.py:151 | Collapsing keeps the words in order with exactly one space between neighbours, and one space at either end where the text has whitespace there. A non-empty text without words collapses to a single space. |
| `Parser.StripCollapseWords` | services/parser.py:151-158 | Stripping the collapsed text leaves exactly the words joined by single spaces. |
| `Parser.CollapseOfCollapsed` | services/parser.py:151 | Collapsing an already collapsed string changes nothing. |
| `Parser.MatchEnd` | services/parser.py:152-156 | A regular-expression match at the scan position is a real match. When none is found, no prefix matches. |
| `Parser.PatternsNeedNewline` | services/parser.py:152-156 | Each of the three patterns `\n\s*\n`, `Cookie.*?policy.*?\n` and `Accept.*?cookies.*?\n` matches only text containing a newline. |
| `Parser.SubstituteWithoutNewline` | services/parser.py:152-156 | A substitution whose pattern needs a newline leaves newline-free text unchanged. |
| `Parser.CollapsedHasNoNewline` | services/parser.py:151-152 | Collapsed text contains no newline. |
| `Parser.SubstitutionsAfterCollapse` | services/parser.py:151-156 | After the whitespace collapse the three substitutions never fire. |
| `Parser.CleanText` | services/parser.py:137-158 | Empty input gives `""`. The cleaned text is the input's words joined by single spaces. It is collapsed and stripped, holds no newline, and keeps the non-whitespace characters of the input in order. |
| `Parser.CleanTextEquation` | services/parser.py:147-158 | `clean_text` equals collapse-then-strip, empty input included. |
| `Parser.CleanTextFixedPoints` | services/parser.py:137-158 | `clean_text` leaves a string unchanged exactly when it is already collapsed and stripped. |
| `Parser.CleanTextIdempotent` | services/parser.py:137-158 | Cleaning twice is the same as cleaning once. |

## Left out

- **I/O and foreign calls.** Streamlit messages and session handling, the
  embedding model, FAISS's byte serialisation through temporary files, and
  the Gemini network call are not modelled. The model call is the parameter
  `llm`, and `generate_response`'s error strings are whatever `llm` returns.
  `max_tokens` is not modelled: `generate_response` never uses it.
- **Other application code.** `app.py`, OCR, URL extraction, corpus loading,
  search and logging are not part of this model. They are glue around foreign calls.
- **Documents** are dicts of string fields. A field holding a non-string value,
  such as a list of authors or `None`, is not modelled.
- **Unicode.** Strings are sequences of code points. Python's whitespace set is
  written out in `Text.IsSpace`; case folding beyond ASCII letters is not
  modelled (it matters only for the cookie patterns, which never fire).
- Chunker.ChunkText: requires `1 <= chunk_size` and `overlap < min(chunk_size, max(chunk_size//2, chunk_size - 100) + 2)`, the smallest advance a window is guaranteed. The source has no such guard. The bound is sufficient for termination, not necessary: outside it the loop may still end, but whenever a window spans at most `overlap` characters the next start does not move forward, and a start that repeats repeats forever.
- Chunker.ChunkTextLoop: carries the same precondition as `ChunkText`, for the same reason.
- ChunkRecords.DocumentRecords: requires the precondition with the fixed overlap 200, that is `chunk_size >= 299`. The application's chunk size is at least 500.
- ChunkRecords.ProcessDocuments: requires `chunk_size >= 299`, as `DocumentRecords` does.
- ChunkRecords.ProcessDocumentsLoop: requires `chunk_size >= 299`, as `DocumentRecords` does.
- Ranking.SquaredL2: coordinates are integers (fixed point), and distances and similarities are exact. float32 rounding is not modelled.
- VectorStore.AddDocuments: requires a batch whose rows share one width (a 2-D array) with one row per document, or the empty array. The empty array stands for `np.array([])`, which the embedding service returns on failure whatever the documents, and which the source rejects. A non-empty batch with another number of rows than documents is not modelled: the source would store it and misalign vectors and documents, but the embedding service returns one row per text when it succeeds. An empty batch of width `d`, from embedding no texts, is treated like the failure array, although with an index the source would accept it and report `True` while adding nothing.
- VectorStore.CreateIndex: requires the same well-formed batch as `AddDocuments`. FAISS failures on malformed arrays are not modelled.
- VectorStore.SearchPositions: ties between equal distances are broken by position; FAISS leaves their order unspecified. The query is a single vector; for a multi-row query the source uses only the first row's results. A non-positive `top_k` or a query of the wrong width makes FAISS raise, which the source turns into `[]`; the model returns `[]` directly.
- VectorStore.SaveLoadRoundTrip: assumes nothing changes the store between save and load. The source saves the store's document list itself, not a copy, so a later `add_documents` also extends the saved list while the saved index bytes stay old. The snapshot here is a value and does not model that aliasing.
- VectorStore.Load: the snapshot is the stored vectors, not index bytes. Loading trusts the session data, as the source does, so the store invariant is not re-established from it.
- Gemini.QuestionOf: only ASCII `0`-`9` count as digits. Python's `str.isdigit` also accepts other Unicode digits.
- Gemini.IntendedQuestionOf: only ASCII `0`-`9` count as digits, as in `QuestionOf`.
- Gemini.ParseQuestions: models the parsing as written. The corrected line reading is `IntendedQuestionOf`, given beside it (see Findings).

## Findings

| source | as written | input that shows it | evidently intended | confidence | as-written member | corrected member |
|---|---|---|---|---|---|---|
| services/gemini_client.py:232-233 | The split at the first `-` replaces the split at the first `.` whenever the line contains `-` anywhere, so a numbered question with a hyphen is cut at the hyphen | the reply line `1. Is e-mail safe?` is read as `mail safe?` | split at `-` only for a bulleted line starting with `-`, and at the first `.` for a numbered line | high; not executed | `Gemini.HyphenCutsNumberedQuestion` | `Gemini.IntendedKeepsNumberedQuestion` |

=== FILE: chunker.dfy ===
/**
 * `EmbeddingService.chunk_text`: a sliding window over the text. When a
 * sentence terminator lies in the scan range, from the raw cut's own index
 * back to just above `max(start + chunk_size / 2, cut - 100)`, the cut moves
 * to just after the nearest one, which can be one past the raw cut; the
 * next window starts `overlap` characters before the cut.
 */
module Chunker {
  import opened Wrappers
  import opened Text

  const DefaultOverlap: int := 200
  /** How far back from the raw cut the terminator search may reach. */
  const Lookback: int := 100

  predicate IsTerminator(c: char) {
    c == '.' || c == '!' || c == '?'
  }

  function Max(a: int, b: int): int {
    if a >= b then a else b
  }

  function Min(a: int, b: int): int {
    if a <= b then a else b
  }

  /**
   * The least advance `end - start` of any window: `chunkSize` when the cut
   * stays put; when it moves back, it lands just after a terminator above
   * `max(start + chunkSize/2, start + chunkSize - Lookback)`.
   */
  function MinStep(chunkSize: int): int {
    Min(chunkSize, Max(chunkSize / 2, chunkSize - Lookback) + 2)
  }

  /**
   * Parameters for which the loop terminates on every text: every window
   * advances past the overlap. The source itself has no such guard; the
   * condition is sufficient, not necessary, since a loop over a given text
   * may end before a short step repeats.
   */
  predicate ValidParams(chunkSize: int, overlap: int) {
    1 <= chunkSize && overlap < MinStep(chunkSize)
  }

  /**
   * The nearest terminator wins, and it may sit at the raw cut itself:
   * with chunk size 6, the window of `"abcd.f.hijkl"` ends at 7, just past
   * the `.` at index 6, not after the `.` at index 4.
   */
  lemma CutPastRawEnd()
    ensures WindowEnd("abcd.f.hijkl", 0, 6) == 7
  {
    var text := "abcd.f.hijkl";
    assert text[6] == '.';
  }

  /**
   * With the default overlap of 200 the loop is guaranteed to end exactly
   * for chunk sizes from 299 on; at the default chunk size 1000 any
   * overlap up to 901 would do.
   */
  lemma DefaultOverlapBound(chunkSize: int)
    ensures ValidParams(chunkSize, DefaultOverlap) <==> chunkSize >= 299
  {
  }

  /**
   * `for i in range(hi, lo, -1): if text[i] in '.!?': return i + 1`: the
   * position just after the LAST terminator in `(lo, hi]`, if any.
   */
  function ScanBack(text: string, hi: int, lo: int): (r: Option<nat>)
    requires -1 <= lo && hi < |text|
    ensures r.Some? ==> lo < r.value - 1 <= hi && IsTerminator(text[r.value - 1])
    decreases hi - lo
  {
    if hi <= lo then None
    else if IsTerminator(text[hi]) then Some(hi + 1)
    else ScanBack(text, hi - 1, lo)
  }

  /** The scan finds the LAST terminator of `(lo, hi]`, and finds none only when there is none. */
  lemma {:induction false} ScanBackLast(text: string, hi: int, lo: int)
    requires -1 <= lo && hi < |text|
    ensures var r := ScanBack(text, hi, lo);
      && (r.Some? ==> forall k :: r.value <= k <= hi ==> !IsTerminator(text[k]))
      && (r.None? ==> forall k :: lo < k <= hi ==> !IsTerminator(text[k]))
    decreases hi - lo
  {
    if hi > lo && !IsTerminator(text[hi]) {
      ScanBackLast(text, hi - 1, lo);
    }
  }

  /** `max(start + chunk_size // 2, end - 100)`: the scan stops above this index. */
  function ScanFloor(start: nat, chunkSize: int): int {
    Max(start + chunkSize / 2, start + chunkSize - Lookback)
  }

  /** The raw cut stays: no terminator at an index in `(ScanFloor, start + chunkSize]`. */
  predicate KeptCut(text: string, start: nat, chunkSize: int, end: nat)
    requires start + chunkSize < |text|
  {
    && end == start + chunkSize
    && forall k :: ScanFloor(start, chunkSize) < k <= start + chunkSize ==> !IsTerminator(text[k])
  }

  /**
   * The cut moves to just after a terminator at index `end - 1`, the last one
   * in `(ScanFloor, start + chunkSize]`.
   */
  predicate MovedCut(text: string, start: nat, chunkSize: int, end: nat)
    requires start + chunkSize < |text|
  {
    && ScanFloor(start, chunkSize) < end - 1 <= start + chunkSize
    && IsTerminator(text[end - 1])
    && forall k :: end <= k <= start + chunkSize ==> !IsTerminator(text[k])
  }

  /**
   * The cut of the window starting at `start`. If the raw cut
   * `start + chunkSize` lies inside the text, it moves to just after the last
   * terminator at an index in `(ScanFloor, start + chunkSize]` when there is
   * one. The scan starts AT index `start + chunkSize`, so a window can hold
   * `chunkSize + 1` characters.
   */
  function WindowEnd(text: string, start: nat, chunkSize: int): (end: nat)
    requires 1 <= chunkSize && start < |text|
    ensures start + MinStep(chunkSize) <= end <= start + chunkSize + 1
    ensures start + chunkSize >= |text| ==> end == start + chunkSize
    ensures start + chunkSize < |text| ==> end <= |text|
  {
    var raw := start + chunkSize;
    if raw < |text| then
      match ScanBack(text, raw, ScanFloor(start, chunkSize))
      case Some(e) => e
      case None => raw
    else raw
  }

  /** Inside the text the cut either stays put or moves back to the last terminator in reach. */
  lemma WindowEndCut(text: string, start: nat, chunkSize: int)
    requires 1 <= chunkSize && start + chunkSize < |text|
    ensures var end := WindowEnd(text, start, chunkSize);
      KeptCut(text, start, chunkSize, end) || MovedCut(text, start, chunkSize, end)
  {
    ScanBackLast(text, start + chunkSize, ScanFloor(start, chunkSize));
  }

  /** One pass of the loop: the slice `text[start:end]` before stripping. */
  datatype Window = Window(start: nat, end: nat)

  /**
   * The windows of the loop from `start` on: the window at `start`, then,
   * unless the next start `end - overlap` is past the text, the windows
   * from there.
   */
  function Windows(text: string, start: nat, chunkSize: int, overlap: int): (ws: seq<Window>)
    requires ValidParams(chunkSize, overlap) && start < |text|
    ensures |ws| >= 1 && ws[0] == Window(start, WindowEnd(text, start, chunkSize))
    decreases |text| - start
  {
    var end := WindowEnd(text, start, chunkSize);
    var next := end - overlap;
    if next >= |text| then [Window(start, end)]
    else [Window(start, end)] + Windows(text, next, chunkSize, overlap)
  }

  /**
   * Window `k`: it starts inside the text and ends at its cut; every window
   * but the last leaves a next start inside the text, `overlap` before its
   * cut, where the next window starts; the last one's next start is past
   * the text.
   */
  lemma {:induction false} WindowAt(text: string, start: nat, chunkSize: int, overlap: int, k: nat)
    requires ValidParams(chunkSize, overlap) && start < |text|
    requires k < |Windows(text, start, chunkSize, overlap)|
    ensures var ws := Windows(text, start, chunkSize, overlap);
      && start <= ws[k].start < |text|
      && ws[k].end == WindowEnd(text, ws[k].start, chunkSize)
      && (k + 1 < |ws| ==> ws[k].end - overlap < |text| && ws[k + 1].start == ws[k].end - overlap)
      && (k + 1 == |ws| ==> ws[k].end - overlap >= |text|)
    decreases k
  {
    var ws := Windows(text, start, chunkSize, overlap);
    var next := ws[0].end - overlap;
    if next < |text| {
      var rest := Windows(text, next, chunkSize, overlap);
      assert ws == [ws[0]] + rest;
      if k > 0 {
        WindowAt(text, next, chunkSize, overlap, k - 1);
        assert ws[k] == rest[k - 1];
        if k + 1 < |ws| {
          assert ws[k + 1] == rest[k];
        }
      } else {
        assert ws[1] == rest[0];
      }
    }
  }

  /** Each window advances at least `MinStep` and holds at most `chunkSize + 1` characters. */
  lemma WindowBounds(text: string, start: nat, chunkSize: int, overlap: int, k: nat)
    requires ValidParams(chunkSize, overlap) && start < |text|
    requires k < |Windows(text, start, chunkSize, overlap)|
    ensures var ws := Windows(text, start, chunkSize, overlap);
      ws[k].start + MinStep(chunkSize) <= ws[k].end <= ws[k].start + chunkSize + 1
  {
    WindowAt(text, start, chunkSize, overlap, k);
  }

  /** Window starts strictly increase, since every window advances past the overlap. */
  lemma StartsIncrease(text: string, start: nat, chunkSize: int, overlap: int, k: nat)
    requires ValidParams(chunkSize, overlap) && start < |text|
    requires k + 1 < |Windows(text, start, chunkSize, overlap)|
    ensures var ws := Windows(text, start, chunkSize, overlap);
      ws[k].start < ws[k + 1].start
  {
    WindowAt(text, start, chunkSize, overlap, k);
  }

  /**
   * `text[start:end]`: Python clamps both bounds to the length and yields
   * `""` when `start` is past `end`.
   */
  function Slice(text: string, w: Window): (s: string)
    ensures w.start <= w.end <= |text| ==> s == text[w.start..w.end]
    ensures |s| <= w.end - w.start || |s| == 0
  {
    var e := Min(w.end, |text|);
    text[Min(w.start, e)..e]
  }

  /**
   * `text[start:end].strip()`, computed on the clamped bounds by dropping
   * whitespace at the front, then at the back, one index at a time.
   */
  function Chunk(text: string, w: Window): (c: string)
    ensures IsStripped(c)
    ensures |c| <= w.end - w.start || c == []
    decreases w.end - w.start
  {
    var e := Min(w.end, |text|);
    var a := Min(w.start, e);
    if a == e then []
    else if IsSpace(text[a]) then Chunk(text, Window(a + 1, e))
    else if IsSpace(text[e - 1]) then Chunk(text, Window(a, e - 1))
    else text[a..e]
  }

  /** The window's chunk is exactly `Strip` of its slice. */
  lemma {:induction false} ChunkIsStrip(text: string, w: Window)
    ensures Chunk(text, w) == Strip(Slice(text, w))
    decreases w.end - w.start
  {
    var e := Min(w.end, |text|);
    var a := Min(w.start, e);
    var s := Slice(text, w);
    assert s == text[a..e];
    if a < e {
      if IsSpace(text[a]) {
        ChunkIsStrip(text, Window(a + 1, e));
        assert s[0] == text[a] && s[1..] == Slice(text, Window(a + 1, e));
      } else if IsSpace(text[e - 1]) {
        ChunkIsStrip(text, Window(a, e - 1));
        assert s[0] == text[a] && s[|s| - 1] == text[e - 1];
        assert s[..|s| - 1] == Slice(text, Window(a, e - 1));
      } else {
        assert s[0] == text[a] && s[|s| - 1] == text[e - 1];
      }
    }
  }

  /** The chunk of every window, in window order. */
  function WindowChunks(text: string, ws: seq<Window>): (cs: seq<string>)
    ensures |cs| == |ws|
    ensures forall k :: 0 <= k < |ws| ==> cs[k] == Chunk(text, ws[k])
  {
    seq(|ws|, k requires 0 <= k < |ws| => Chunk(text, ws[k]))
  }

  /** The non-empty strings among `cs[i..]`, in order: what the loop's `if chunk:` keeps. */
  function NonEmptyFrom(cs: seq<string>, i: nat): seq<string>
    requires i <= |cs|
    decreases |cs| - i
  {
    if i == |cs| then []
    else (if cs[i] != [] then [cs[i]] else []) + NonEmptyFrom(cs, i + 1)
  }

  /** Keeping or dropping `cs[i]` moves it from the pending strings to the collected ones. */
  lemma NonEmptyStep(cs: seq<string>, i: nat, collected: seq<string>)
    requires i < |cs|
    ensures collected + NonEmptyFrom(cs, i)
      == (collected + (if cs[i] != [] then [cs[i]] else [])) + NonEmptyFrom(cs, i + 1)
  {
  }

  /** Every string kept is non-empty and one of `cs[i..]`, and there is at most one per position. */
  lemma {:induction false} NonEmptyFromKept(cs: seq<string>, i: nat)
    requires i <= |cs|
    ensures |NonEmptyFrom(cs, i)| <= |cs| - i
    ensures forall c :: c in NonEmptyFrom(cs, i) ==> c != [] && exists k :: i <= k < |cs| && c == cs[k]
    decreases |cs| - i
  {
    if i < |cs| {
      NonEmptyFromKept(cs, i + 1);
    }
  }

  /** Every non-empty string of `cs[i..]` is kept. */
  lemma {:induction false} NonEmptyFromKeeps(cs: seq<string>, i: nat, k: nat)
    requires i <= k < |cs| && cs[k] != []
    ensures cs[k] in NonEmptyFrom(cs, i)
    decreases k - i
  {
    if i < k {
      NonEmptyFromKeeps(cs, i + 1, k);
    }
  }

  /** The chunks the loop keeps over the windows `ws`: those non-empty after stripping. */
  function Pieces(text: string, ws: seq<Window>): seq<string> {
    NonEmptyFrom(WindowChunks(text, ws), 0)
  }

  /** Every kept chunk is the non-empty chunk of some window. */
  lemma PiecesFromWindows(text: string, ws: seq<Window>)
    ensures forall c :: c in Pieces(text, ws) ==> c != [] && exists k :: 0 <= k < |ws| && c == Chunk(text, ws[k])
  {
    NonEmptyFromKept(WindowChunks(text, ws), 0);
  }

  /** Every window whose chunk is non-empty contributes it. */
  lemma PiecesKeepNonEmpty(text: string, ws: seq<Window>, k: nat)
    requires k < |ws| && Chunk(text, ws[k]) != []
    ensures Chunk(text, ws[k]) in Pieces(text, ws)
  {
    NonEmptyFromKeeps(WindowChunks(text, ws), 0, k);
  }

  /**
   * On the long-text path every chunk is non-empty, stripped and no longer
   * than `chunkSize + 1`.
   */
  lemma PiecesShape(text: string, chunkSize: int, overlap: int)
    requires ValidParams(chunkSize, overlap) && |text| > 0
    ensures forall c :: c in Pieces(text, Windows(text, 0, chunkSize, overlap)) ==>
      c != [] && IsStripped(c) && |c| <= chunkSize + 1
  {
    var ws := Windows(text, 0, chunkSize, overlap);
    PiecesFromWindows(text, ws);
    forall c | c in Pieces(text, ws) ensures c != [] && IsStripped(c) && |c| <= chunkSize + 1 {
      var k :| 0 <= k < |ws| && c == Chunk(text, ws[k]);
      WindowBounds(text, 0, chunkSize, overlap, k);
    }
  }

  /**
   * `chunk_text(text, chunk_size, overlap)`. A text of at most `chunkSize`
   * characters comes back whole and unstripped (so `""` gives `[""]`);
   * otherwise every chunk is non-empty, stripped and at most
   * `chunkSize + 1` long.
   */
  function ChunkText(text: string, chunkSize: int, overlap: int): (r: seq<string>)
    requires ValidParams(chunkSize, overlap)
    ensures |text| <= chunkSize ==> r == [text]
    ensures |text| > chunkSize ==>
      forall c :: c in r ==> c != [] && IsStripped(c) && |c| <= chunkSize + 1
  {
    if |text| <= chunkSize then [text]
    else
      PiecesShape(text, chunkSize, overlap);
      Pieces(text, Windows(text, 0, chunkSize, overlap))
  }

  /**
   * On the long-text path each chunk is the strip of the slice of one of the
   * loop's windows, in window order, and every window with a non-blank slice
   * contributes its chunk.
   */
  lemma ChunkTextFromWindows(text: string, chunkSize: int, overlap: int)
    requires ValidParams(chunkSize, overlap) && |text| > chunkSize
    ensures var ws := Windows(text, 0, chunkSize, overlap);
      && ChunkText(text, chunkSize, overlap) == Pieces(text, ws)
      && (forall c :: c in ChunkText(text, chunkSize, overlap) ==>
            exists k :: 0 <= k < |ws| && c == Chunk(text, ws[k]))
      && (forall k :: 0 <= k < |ws| && Chunk(text, ws[k]) != [] ==>
            Chunk(text, ws[k]) in ChunkText(text, chunkSize, overlap))
  {
    var ws := Windows(text, 0, chunkSize, overlap);
    PiecesFromWindows(text, ws);
    forall k | 0 <= k < |ws| && Chunk(text, ws[k]) != []
      ensures Chunk(text, ws[k]) in Pieces(text, ws)
    {
      PiecesKeepNonEmpty(text, ws, k);
    }
  }

  /** The inner `for` loop of `chunk_text`: the cut of the window at `start`. */
  method FindCut(text: string, start: nat, chunkSize: int) returns (end: nat)
    requires 1 <= chunkSize && start < |text|
    ensures end == WindowEnd(text, start, chunkSize)
  {
    end := start + chunkSize;
    if end < |text| {
      var floor := ScanFloor(start, chunkSize);
      var i := end;
      while i > floor
        invariant floor <= i <= start + chunkSize
        invariant end == start + chunkSize
        invariant ScanBack(text, i, floor) == ScanBack(text, start + chunkSize, floor)
        decreases i - floor
      {
        if IsTerminator(text[i]) {
          end := i + 1;
          break;
        }
        i := i - 1;
      }
    }
  }

  /**
   * One pass of the loop, for window `i` at `start`: appending its chunk
   * when non-empty leaves the chunks of the later windows to collect, and
   * the loop stops exactly after the last window.
   */
  lemma CollectStep(text: string, chunkSize: int, overlap: int, i: nat, start: nat, chunks: seq<string>)
    requires ValidParams(chunkSize, overlap) && start < |text|
    requires i < |Windows(text, 0, chunkSize, overlap)|
    requires Windows(text, 0, chunkSize, overlap)[i].start == start
    requires var cs := WindowChunks(text, Windows(text, 0, chunkSize, overlap));
      chunks + NonEmptyFrom(cs, i) == NonEmptyFrom(cs, 0)
    ensures var ws := Windows(text, 0, chunkSize, overlap);
      var cs := WindowChunks(text, ws);
      var end := WindowEnd(text, start, chunkSize);
      var chunk := Chunk(text, Window(start, end));
      var next := if chunk != [] then chunks + [chunk] else chunks;
      && (end - overlap >= |text| ==> next == NonEmptyFrom(cs, 0))
      && (end - overlap < |text| ==>
            && i + 1 < |ws| && ws[i + 1].start == end - overlap
            && next + NonEmptyFrom(cs, i + 1) == NonEmptyFrom(cs, 0))
  {
    var ws := Windows(text, 0, chunkSize, overlap);
    var cs := WindowChunks(text, ws);
    var end := WindowEnd(text, start, chunkSize);
    WindowAt(text, 0, chunkSize, overlap, i);
    assert ws[i] == Window(start, end);
    assert cs[i] == Chunk(text, Window(start, end));
    NonEmptyStep(cs, i, chunks);
    if end - overlap >= |text| {
      assert i + 1 == |cs| && NonEmptyFrom(cs, i + 1) == [];
    }
  }

  /** The `while` loop of `chunk_text`, entered when the text is longer than `chunkSize`. */
  method CollectChunks(text: string, chunkSize: int, overlap: int) returns (chunks: seq<string>)
    requires ValidParams(chunkSize, overlap) && |text| > chunkSize
    ensures chunks == Pieces(text, Windows(text, 0, chunkSize, overlap))
  {
    ghost var cs := WindowChunks(text, Windows(text, 0, chunkSize, overlap));
    ghost var i := 0;
    chunks := [];
    var start := 0;
    while true
      invariant start < |text|
      invariant i < |Windows(text, 0, chunkSize, overlap)|
      invariant Windows(text, 0, chunkSize, overlap)[i].start == start
      invariant chunks + NonEmptyFrom(cs, i) == NonEmptyFrom(cs, 0)
      decreases |cs| - i
    {
      CollectStep(text, chunkSize, overlap, i, start, chunks);
      var end := FindCut(text, start, chunkSize);
      // `text[start:end].strip()`
      var chunk := Chunk(text, Window(start, end));
      if chunk != [] {
        chunks := chunks + [chunk];
      }
      if end - overlap >= |text| {
        return;
      }
      start := end - overlap;
      i := i + 1;
    }
  }

  /** `chunk_text` as written, loop and all; it computes exactly `ChunkText`. */
  method ChunkTextLoop(text: string, chunkSize: int, overlap: int) returns (chunks: seq<string>)
    requires ValidParams(chunkSize, overlap)
    ensures chunks == ChunkText(text, chunkSize, overlap)
  {
    if |text| <= chunkSize {
      return [text];
    }
    chunks := CollectChunks(text, chunkSize, overlap);
  }

  // ---------------------------------------------------------------------
  // Properties of the windows

  /** Windows `k..` reach `p` when window `k` starts at or before it: some window holds `p`. */
  lemma {:induction false} CoveredFrom(text: string, chunkSize: int, overlap: int, p: int, k: nat)
    requires ValidParams(chunkSize, overlap) && 0 <= overlap && 0 <= p < |text|
    requires k < |Windows(text, 0, chunkSize, overlap)|
    requires Windows(text, 0, chunkSize, overlap)[k].start <= p
    ensures var ws := Windows(text, 0, chunkSize, overlap);
      exists j :: k <= j < |ws| && ws[j].start <= p < ws[j].end
    decreases |Windows(text, 0, chunkSize, overlap)| - k
  {
    var ws := Windows(text, 0, chunkSize, overlap);
    WindowAt(text, 0, chunkSize, overlap, k);
    if p >= ws[k].end {
      CoveredFrom(text, chunkSize, overlap, p, k + 1);
    }
  }

  /**
   * With a non-negative overlap the windows leave no gap: every position of
   * the text lies inside some window.
   */
  lemma WindowsCover(text: string, chunkSize: int, overlap: int, p: int)
    requires ValidParams(chunkSize, overlap) && 0 <= overlap && 0 <= p < |text|
    ensures var ws := Windows(text, 0, chunkSize, overlap);
      exists k :: 0 <= k < |ws| && ws[k].start <= p < ws[k].end
  {
    CoveredFrom(text, chunkSize, overlap, p, 0);
  }

  /** A window whose cut reaches the end of the text is followed only by windows that do too, each starting later. */
  lemma {:induction false} TailFrom(text: string, chunkSize: int, overlap: int, k: nat, l: nat)
    requires ValidParams(chunkSize, overlap) && |text| > 0
    requires k < l < |Windows(text, 0, chunkSize, overlap)|
    requires Windows(text, 0, chunkSize, overlap)[k].end >= |text|
    ensures var ws := Windows(text, 0, chunkSize, overlap);
      ws[k].start < ws[l].start && ws[l].end >= |text|
    decreases l - k
  {
    var ws := Windows(text, 0, chunkSize, overlap);
    WindowAt(text, 0, chunkSize, overlap, k);
    WindowAt(text, 0, chunkSize, overlap, k + 1);
    if l > k + 1 {
      TailFrom(text, chunkSize, overlap, k + 1, l);
    }
  }

  /**
   * Once a window's cut reaches the end of the text, every later window
   * starts after it and also reaches the end: its slice is a tail of that
   * window's slice.
   */
  lemma TailWindowsContained(text: string, chunkSize: int, overlap: int)
    requires ValidParams(chunkSize, overlap)
    ensures |text| > 0 ==> var ws := Windows(text, 0, chunkSize, overlap);
      forall k, l :: 0 <= k < l < |ws| && ws[k].end >= |text| ==>
        ws[k].start < ws[l].start && ws[l].end >= |text|
  {
    if |text| > 0 {
      var ws := Windows(text, 0, chunkSize, overlap);
      forall k, l | 0 <= k < l < |ws| && ws[k].end >= |text|
        ensures ws[k].start < ws[l].start && ws[l].end >= |text|
      {
        TailFrom(text, chunkSize, overlap, k, l);
      }
    }
  }

  /**
   * With `2 * overlap <= chunkSize` (the default 1000/200 qualifies) at most
   * one further window follows the first window whose cut reaches the end.
   */
  lemma AtMostOneTailWindow(text: string, chunkSize: int, overlap: int, k: nat)
    requires ValidParams(chunkSize, overlap) && 2 * overlap <= chunkSize && |text| > 0
    requires k < |Windows(text, 0, chunkSize, overlap)|
    requires Windows(text, 0, chunkSize, overlap)[k].end >= |text|
    ensures k >= |Windows(text, 0, chunkSize, overlap)| - 2
  {
    var ws := Windows(text, 0, chunkSize, overlap);
    WindowAt(text, 0, chunkSize, overlap, k);
    if k + 2 < |ws| {
      WindowAt(text, 0, chunkSize, overlap, k + 1);
    }
  }

  /** When a window's cut falls just after a terminator, its chunk ends with that terminator. */
  lemma ChunkEndsAtTerminator(text: string, w: Window)
    requires w.start < w.end <= |text|
    requires IsTerminator(text[w.end - 1])
    ensures Chunk(text, w) != [] && Chunk(text, w)[|Chunk(text, w)| - 1] == text[w.end - 1]
  {
    var s := Slice(text, w);
    assert s[|s| - 1] == text[w.end - 1];
    StripKeepsLast(s);
    ChunkIsStrip(text, w);
  }

  /** A window's chunk is empty exactly when its slice is all whitespace. */
  lemma ChunkEmptyIff(text: string, w: Window)
    ensures Chunk(text, w) == [] <==> AllSpace(Slice(text, w))
  {
    StripEmptyIff(Slice(text, w));
    ChunkIsStrip(text, w);
  }

  /** A text with a non-space character yields a chunk, whichever path it takes. */
  lemma ChunkTextNonEmpty(text: string, chunkSize: int, overlap: int, p: nat)
    requires ValidParams(chunkSize, overlap) && 0 <= overlap
    requires p < |text| && !IsSpace(text[p])
    ensures ChunkText(text, chunkSize, overlap) != []
  {
    if |text| > chunkSize {
      var ws := Windows(text, 0, chunkSize, overlap);
      WindowsCover(text, chunkSize, overlap, p);
      var k :| 0 <= k < |ws| && ws[k].start <= p < ws[k].end;
      CoveredChunk(text, ws[k], p);
      PiecesKeepNonEmpty(text, ws, k);
    }
  }

  /** A window covering a non-space character has a non-empty chunk. */
  lemma CoveredChunk(text: string, w: Window, p: nat)
    requires w.start <= p < w.end && p < |text| && !IsSpace(text[p])
    ensures Chunk(text, w) != []
  {
    var s := Slice(text, w);
    assert s[p - w.start] == text[p];
    ChunkEmptyIff(text, w);
  }

  /** A long all-whitespace text yields no chunk. */
  lemma ChunkTextOfSpaces(text: string, chunkSize: int, overlap: int)
    requires ValidParams(chunkSize, overlap) && |text| > chunkSize && AllSpace(text)
    ensures ChunkText(text, chunkSize, overlap) == []
  {
    var ws := Windows(text, 0, chunkSize, overlap);
    var r := Pieces(text, ws);
    if r != [] {
      PiecesFromWindows(text, ws);
      assert r[0] in r;
      var k :| 0 <= k < |ws| && r[0] == Chunk(text, ws[k]);
      SliceOfSpaces(text, ws[k]);
      ChunkEmptyIff(text, ws[k]);
    }
  }

  /**
   * The long-text path yields no chunk exactly when the text is all
   * whitespace (overlap non-negative); the short path always yields one.
   */
  lemma ChunkTextEmptyIff(text: string, chunkSize: int, overlap: int)
    requires ValidParams(chunkSize, overlap) && 0 <= overlap
    ensures ChunkText(text, chunkSize, overlap) == [] <==> |text| > chunkSize && AllSpace(text)
  {
    if !AllSpace(text) {
      var p :| 0 <= p < |text| && !IsSpace(text[p]);
      ChunkTextNonEmpty(text, chunkSize, overlap, p);
    } else if |text| > chunkSize {
      ChunkTextOfSpaces(text, chunkSize, overlap);
    }
  }

  /** A slice of an all-whitespace text is all whitespace. */
  lemma SliceOfSpaces(text: string, w: Window)
    requires AllSpace(text)
    ensures AllSpace(Slice(text, w))
  {
    var e := Min(w.end, |text|);
    var s := Slice(text, w);
    forall j | 0 <= j < |s| ensures IsSpace(s[j]) {
      assert s[j] == text[Min(w.start, e) + j];
    }
  }
}

=== FILE: documents.dfy ===
/** Documents as the services pass them around: Python dicts of string fields. */
module Documents {

  /** A document dict; a key that is absent is simply not in the map. */
  type SourceDoc = map<string, string>

  /** `doc.get(key, default)`. */
  function Get(doc: SourceDoc, key: string, default: string): (v: string)
    ensures key in doc ==> v == doc[key]
    ensures key !in doc ==> v == default
  {
    if key in doc then doc[key] else default
  }
}

=== FILE: gemini.dfy ===
/**
 * The string logic around the language-model calls: packing retrieved
 * chunks into an answer prompt under a character budget, rendering
 * documents for a summary, building the follow-up digest, and parsing
 * the model's numbered list back into questions. The model itself is the
 * parameter `llm`: whatever it answers for a prompt.
 */
module Gemini {
  import opened Wrappers
  import opened Text
  import opened Documents

  /** `doc.get('title', 'Untitled')`. */
  function TitleOf(doc: SourceDoc): string {
    Get(doc, "title", "Untitled")
  }

  /** `" (url)"` when the url is non-empty, nothing otherwise. */
  function UrlSuffix(url: string): (r: string)
    ensures url == [] ==> r == []
    ensures url != [] ==> |r| == |url| + 3 && r[..2] == " (" && r[2..|r| - 1] == url && r[|r| - 1] == ')'
  {
    if url == [] then [] else " (" + url + ")"
  }

  // ---------------------------------------------------------------- answers

  const SourceLabel: string := "Source: "
  const ContentLabel: string := "\nContent: "

  /** One source as it appears in the answer context. */
  function RenderSource(doc: SourceDoc): (t: string)
    ensures |t| == 19 + |TitleOf(doc)| + |UrlSuffix(Get(doc, "url", ""))| + |Get(doc, "content", "")|
  {
    SourceLabel + TitleOf(doc) + UrlSuffix(Get(doc, "url", "")) + ContentLabel + Get(doc, "content", "") + "\n"
  }

  /**
   * A rendered source is the source label, the title, the url suffix, the
   * content label, the content and a final newline, in that order.
   */
  lemma RenderSourceLayout(doc: SourceDoc)
    ensures var t := RenderSource(doc);
      var title, suffix, content := TitleOf(doc), UrlSuffix(Get(doc, "url", "")), Get(doc, "content", "");
      && t[..8] == SourceLabel
      && t[8..8 + |title|] == title
      && t[8 + |title|..8 + |title| + |suffix|] == suffix
      && t[8 + |title| + |suffix|..|t| - |content| - 1] == ContentLabel
      && t[|t| - |content| - 1..|t| - 1] == content
      && t[|t| - 1] == '\n'
  {
    var title, suffix, content := TitleOf(doc), UrlSuffix(Get(doc, "url", "")), Get(doc, "content", "");
    var head := SourceLabel + title + suffix + ContentLabel + content;
    Concat5(SourceLabel, title, suffix, ContentLabel, content);
    PrefixOfAppend(head, "\n");
  }

  /** Every slice of `a` is the same slice of `a + b`. */
  lemma PrefixOfAppend(a: string, b: string)
    ensures forall i, j :: 0 <= i <= j <= |a| ==> (a + b)[i..j] == a[i..j]
  {
    forall i, j | 0 <= i <= j <= |a| ensures (a + b)[i..j] == a[i..j] {
      assert (a + b)[..|a|] == a;
      assert (a + b)[i..j] == (a + b)[..|a|][i..j];
    }
  }

  /** The rendering of every document, in order. */
  function Rendered(docs: seq<SourceDoc>): (ts: seq<string>)
    ensures |ts| == |docs|
    ensures forall i :: 0 <= i < |docs| ==> ts[i] == RenderSource(docs[i])
  {
    seq(|docs|, i requires 0 <= i < |docs| => RenderSource(docs[i]))
  }

  /**
   * Greedy packing, having already used `used` characters: take texts in
   * order while the running total stays within `budget`, and stop at the
   * first one that would exceed it.
   */
  function PackFrom(ts: seq<string>, budget: int, used: nat): (parts: seq<string>)
    ensures |parts| <= |ts|
    decreases |ts|
  {
    if ts == [] then []
    else if used + |ts[0]| > budget then []
    else [ts[0]] + PackFrom(ts[1..], budget, used + |ts[0]|)
  }

  /**
   * Packing takes a prefix of the texts that fits in what is left of the
   * budget, and the first text left out would not fit.
   */
  lemma {:induction false} PackFromSpec(ts: seq<string>, budget: int, used: nat)
    ensures var parts := PackFrom(ts, budget, used);
      && parts <= ts
      && (parts == [] || used + TotalLength(parts) <= budget)
      && (|parts| < |ts| ==> used + TotalLength(parts) + |ts[|parts|]| > budget)
    decreases |ts|
  {
    if ts != [] && used + |ts[0]| <= budget {
      var rest := PackFrom(ts[1..], budget, used + |ts[0]|);
      PackFromSpec(ts[1..], budget, used + |ts[0]|);
      var parts := [ts[0]] + rest;
      assert parts[1..] == rest;
      assert ts == [ts[0]] + ts[1..];
      if |parts| < |ts| {
        assert ts[1..][|rest|] == ts[|parts|];
      }
    }
  }

  /** The rendered sources included in the answer context. */
  function PackContext(docs: seq<SourceDoc>, budget: int): (parts: seq<string>)
    ensures |parts| <= |docs|
  {
    PackFrom(Rendered(docs), budget, 0)
  }

  /**
   * The context is the longest prefix of the rendered sources whose total
   * length stays within the budget, stopping at the first source that
   * would overflow it even if a later one would fit.
   */
  lemma PackContextSpec(docs: seq<SourceDoc>, budget: int)
    ensures var parts := PackContext(docs, budget);
      && (forall i :: 0 <= i < |parts| ==> parts[i] == RenderSource(docs[i]))
      && (parts == [] || TotalLength(parts) <= budget)
      && (|parts| < |docs| ==> TotalLength(parts) + |RenderSource(docs[|parts|])| > budget)
  {
    var ts := Rendered(docs);
    PackFromSpec(ts, budget, 0);
    var parts := PackContext(docs, budget);
    forall i | 0 <= i < |parts| ensures parts[i] == RenderSource(docs[i]) {
      assert parts[i] == ts[i];
    }
  }

  const ContextSeparator: string := "\n---\n"

  /**
   * The budget counts the sources only: the joined context exceeds the
   * packed length by exactly one separator between neighbours.
   */
  lemma ContextLength(docs: seq<SourceDoc>, budget: int)
    requires PackContext(docs, budget) != []
    ensures |Join(PackContext(docs, budget), ContextSeparator)| ==
      TotalLength(PackContext(docs, budget)) + 5 * (|PackContext(docs, budget)| - 1)
    ensures |Join(PackContext(docs, budget), ContextSeparator)| <= budget + 5 * (|PackContext(docs, budget)| - 1)
  {
    JoinLength(PackContext(docs, budget), ContextSeparator);
    PackContextSpec(docs, budget);
  }

  lemma {:induction false} TotalLengthAppend(parts: seq<string>, t: string)
    ensures TotalLength(parts + [t]) == TotalLength(parts) + |t|
    decreases |parts|
  {
    if parts != [] {
      assert (parts + [t])[1..] == parts[1..] + [t];
      TotalLengthAppend(parts[1..], t);
    }
  }

  /** One turn of the packing loop keeps `parts` followed by the rest of the packing equal to the whole. */
  lemma PackFromStep(ts: seq<string>, k: nat, budget: int, used: nat, parts: seq<string>, whole: seq<string>)
    requires k < |ts|
    requires parts + PackFrom(ts[k..], budget, used) == whole
    ensures used + |ts[k]| > budget ==> parts == whole
    ensures used + |ts[k]| <= budget ==>
      (parts + [ts[k]]) + PackFrom(ts[k + 1..], budget, used + |ts[k]|) == whole
  {
    assert ts[k..][0] == ts[k];
    assert ts[k..][1..] == ts[k + 1..];
    if used + |ts[k]| > budget {
      assert parts + [] == parts;
    } else {
      assert (parts + [ts[k]]) + PackFrom(ts[k + 1..], budget, used + |ts[k]|) ==
        parts + ([ts[k]] + PackFrom(ts[k + 1..], budget, used + |ts[k]|));
    }
  }

  /**
   * The loop of `answer_question_with_context` over the rendered sources:
   * append while the running length fits, else stop.
   */
  method PackLoop(ts: seq<string>, budget: int) returns (parts: seq<string>)
    ensures parts == PackFrom(ts, budget, 0)
  {
    ghost var whole := PackFrom(ts, budget, 0);
    parts := [];
    var current := 0;
    var k := 0;
    while k < |ts|
      invariant 0 <= k <= |ts|
      invariant current == TotalLength(parts)
      invariant parts + PackFrom(ts[k..], budget, current) == whole
    {
      var t := ts[k];
      PackFromStep(ts, k, budget, current, parts, whole);
      if current + |t| > budget {
        return;
      }
      TotalLengthAppend(parts, t);
      parts := parts + [t];
      current := current + |t|;
      k := k + 1;
    }
    assert ts[k..] == [];
    assert parts + [] == parts;
  }

  /** Rendering each document, then packing: the sources the answer prompt includes. */
  method PackContextLoop(docs: seq<SourceDoc>, budget: int) returns (parts: seq<string>)
    ensures parts == PackContext(docs, budget)
  {
    var ts := Rendered(docs);
    parts := PackLoop(ts, budget);
  }

  const AnswerHeader: string :=
    "Based on the following research context, please answer the user's question. \n"
    + "Provide a comprehensive, accurate answer and cite the relevant sources when possible.\n\n"
    + "RESEARCH CONTEXT:\n"

  const AnswerFooter: string :=
    "\n\nPlease provide a detailed answer based on the context above. If the context doesn't "
    + "contain enough information to fully answer the question, please indicate what information "
    + "is missing and provide what insights you can based on the available context."

  const QuestionMarker: string := "\n\nQUESTION: "

  /**
   * The prompt sent for a question: the bare question without context
   * documents; otherwise the header, the packed context, the question and
   * the closing instructions.
   */
  function AnswerPrompt(question: string, docs: seq<SourceDoc>, budget: int): (p: string)
    ensures docs == [] ==> p == "Question: " + question
    ensures docs != [] ==>
      var context := Join(PackContext(docs, budget), ContextSeparator);
      && |p| == |AnswerHeader| + |context| + |QuestionMarker| + |question| + |AnswerFooter|
      && p[..|AnswerHeader|] == AnswerHeader
      && p[|AnswerHeader|..|AnswerHeader| + |context|] == context
      && p[|AnswerHeader| + |context|..|p| - |question| - |AnswerFooter|] == QuestionMarker
      && p[|p| - |question| - |AnswerFooter|..|p| - |AnswerFooter|] == question
      && p[|p| - |AnswerFooter|..] == AnswerFooter
  {
    if docs == [] then "Question: " + question
    else
      var context := Join(PackContext(docs, budget), ContextSeparator);
      Concat5(AnswerHeader, context, QuestionMarker, question, AnswerFooter);
      AnswerHeader + context + QuestionMarker + question + AnswerFooter
  }

  /** Where each of five concatenated strings sits in the result. */
  lemma Concat5(a: string, b: string, c: string, d: string, e: string)
    ensures var p := a + b + c + d + e;
      && |p| == |a| + |b| + |c| + |d| + |e|
      && p[..|a|] == a
      && p[|a|..|a| + |b|] == b
      && p[|a| + |b|..|p| - |d| - |e|] == c
      && p[|p| - |d| - |e|..|p| - |e|] == d
      && p[|p| - |e|..] == e
  {
    var p := a + b + c + d + e;
    assert p == (((a + b) + c) + d) + e;
    assert p[|a|..|a| + |b|] == b;
    assert p[|a| + |b|..|a| + |b| + |c|] == c;
    assert p[|a| + |b| + |c|..|a| + |b| + |c| + |d|] == d;
  }

  /** `answer_question_with_context`: the model's reply to the prompt. */
  function AnswerQuestion(question: string, docs: seq<SourceDoc>, budget: int, llm: string -> string): (a: string)
    ensures a == llm(AnswerPrompt(question, docs, budget))
  {
    llm(AnswerPrompt(question, docs, budget))
  }

  // -------------------------------------------------------------- summaries

  const SummaryLimit: nat := 10
  const SummaryContentLimit: nat := 500
  const NoDocumentsMessage: string := "No documents provided for summarization."

  /** Content longer than `n` keeps its first `n` characters and gains `"..."`. */
  function Truncate(content: string, n: nat): (r: string)
    ensures |content| <= n ==> r == content
    ensures |content| > n ==> |r| == n + 3 && r[..n] <= content && r[n..] == "..."
  {
    if |content| > n then content[..n] + "..." else content
  }

  /** One source in the summary prompt. */
  function SummaryEntry(doc: SourceDoc): (e: string)
    ensures |e| <= 5 + |TitleOf(doc)| + |UrlSuffix(Get(doc, "url", ""))| + SummaryContentLimit + 3
  {
    "**" + TitleOf(doc) + "**" + UrlSuffix(Get(doc, "url", "")) + "\n"
    + Truncate(Get(doc, "content", ""), SummaryContentLimit)
  }

  function Entries(docs: seq<SourceDoc>): (es: seq<string>)
    ensures |es| == |docs|
    ensures forall i :: 0 <= i < |docs| ==> es[i] == SummaryEntry(docs[i])
  {
    seq(|docs|, i requires 0 <= i < |docs| => SummaryEntry(docs[i]))
  }

  const SummaryHeader: string := "Please create a comprehensive research summary about \""
  const SummaryIntro: string := "\" based on the following sources:\n\n"
  const EntrySeparator: string := "\n\n---\n\n"

  const SummaryFooter: string :=
    "\n\nPlease provide:\n"
    + "1. An executive summary of the key findings\n"
    + "2. Main themes and insights discovered\n"
    + "3. Important statistics or facts (if any)\n"
    + "4. Different perspectives or viewpoints presented\n"
    + "5. Areas that might need further research\n\n"
    + "Format the response in a clear, well-structured manner."

  /**
   * The summary prompt: the quoted topic, then the entries of the first
   * ten documents separated by horizontal rules, then the instructions.
   */
  function SummaryPrompt(docs: seq<SourceDoc>, topic: string): (p: string)
    ensures var body := Join(Entries(Prefix(docs, SummaryLimit)), EntrySeparator);
      && |p| == |SummaryHeader| + |topic| + |SummaryIntro| + |body| + |SummaryFooter|
      && p[..|SummaryHeader|] == SummaryHeader
      && p[|SummaryHeader|..|SummaryHeader| + |topic|] == topic
      && p[|SummaryHeader| + |topic|..|p| - |body| - |SummaryFooter|] == SummaryIntro
      && p[|p| - |body| - |SummaryFooter|..|p| - |SummaryFooter|] == body
      && p[|p| - |SummaryFooter|..] == SummaryFooter
  {
    var body := Join(Entries(Prefix(docs, SummaryLimit)), EntrySeparator);
    Concat5(SummaryHeader, topic, SummaryIntro, body, SummaryFooter);
    SummaryHeader + topic + SummaryIntro + body + SummaryFooter
  }

  /** `summarize_research`: a fixed message without documents, else the model's summary. */
  function Summarize(docs: seq<SourceDoc>, topic: string, llm: string -> string): (r: string)
    ensures docs == [] ==> r == NoDocumentsMessage
    ensures docs != [] ==> r == llm(SummaryPrompt(docs, topic))
  {
    if docs == [] then NoDocumentsMessage else llm(SummaryPrompt(docs, topic))
  }

  /** Only the first ten documents reach the summary. */
  lemma SummaryUsesFirstTen(docs: seq<SourceDoc>, topic: string, llm: string -> string)
    requires |docs| > SummaryLimit
    ensures Summarize(docs, topic, llm) == Summarize(docs[..SummaryLimit], topic, llm)
  {
    assert Prefix(docs[..SummaryLimit], SummaryLimit) == Prefix(docs, SummaryLimit);
  }

  /**
   * Rendered content never exceeds 503 characters, and it is the content
   * unchanged exactly when that is short or already ends at 503
   * characters in the ellipsis the truncation would add.
   */
  lemma SummaryContentBound(content: string)
    ensures |Truncate(content, SummaryContentLimit)| <= SummaryContentLimit + 3
    ensures Truncate(content, SummaryContentLimit) == content <==>
      |content| <= SummaryContentLimit ||
      (|content| == SummaryContentLimit + 3 && content[SummaryContentLimit..] == "...")
  {
    var n := SummaryContentLimit;
    if |content| == n + 3 && content[n..] == "..." {
      assert content == content[..n] + content[n..];
    }
  }

  // ------------------------------------------------------ follow-up questions

  const DigestLimit: nat := 5
  const DigestContentLimit: nat := 300
  const MaxQuestions: nat := 5

  /** `- title: content[:300]...`; the ellipsis is added even to short content. */
  function DigestLine(doc: SourceDoc): (l: string)
    ensures var title, excerpt := TitleOf(doc), Prefix(Get(doc, "content", ""), DigestContentLimit);
      && |l| == 7 + |title| + |excerpt|
      && l[..2] == "- "
      && l[2..2 + |title|] == title
      && l[2 + |title|..|l| - |excerpt| - 3] == ": "
      && l[|l| - |excerpt| - 3..|l| - 3] == excerpt
      && l[|l| - 3..] == "..."
  {
    var title, excerpt := TitleOf(doc), Prefix(Get(doc, "content", ""), DigestContentLimit);
    Concat5("- ", title, ": ", excerpt, "...");
    "- " + title + ": " + excerpt + "..."
  }

  function DigestLines(docs: seq<SourceDoc>): (ls: seq<string>)
    ensures |ls| == |docs|
    ensures forall i :: 0 <= i < |docs| ==> ls[i] == DigestLine(docs[i])
  {
    seq(|docs|, i requires 0 <= i < |docs| => DigestLine(docs[i]))
  }

  const FollowUpHeader: string := "Based on the research about \""
  const FollowUpIntro: string := "\" and the following key findings:\n\n"

  const FollowUpFooter: string :=
    "\n\nGenerate 5 relevant follow-up questions that would help deepen understanding of this topic. \n"
    + "The questions should be:\n"
    + "1. Specific and actionable\n"
    + "2. Build upon the existing research\n"
    + "3. Address different aspects or perspectives\n"
    + "4. Help identify gaps or areas for further investigation\n\n"
    + "Format as a numbered list:"

  /**
   * The follow-up prompt: the quoted topic, then one digest line per
   * document for the first five, then the request for a numbered list.
   */
  function FollowUpPrompt(topic: string, docs: seq<SourceDoc>): (p: string)
    ensures var digest := Join(DigestLines(Prefix(docs, DigestLimit)), "\n");
      && |p| == |FollowUpHeader| + |topic| + |FollowUpIntro| + |digest| + |FollowUpFooter|
      && p[..|FollowUpHeader|] == FollowUpHeader
      && p[|FollowUpHeader|..|FollowUpHeader| + |topic|] == topic
      && p[|FollowUpHeader| + |topic|..|p| - |digest| - |FollowUpFooter|] == FollowUpIntro
      && p[|p| - |digest| - |FollowUpFooter|..|p| - |FollowUpFooter|] == digest
      && p[|p| - |FollowUpFooter|..] == FollowUpFooter
  {
    var digest := Join(DigestLines(Prefix(docs, DigestLimit)), "\n");
    Concat5(FollowUpHeader, topic, FollowUpIntro, digest, FollowUpFooter);
    FollowUpHeader + topic + FollowUpIntro + digest + FollowUpFooter
  }

  /** Only the first five documents reach the follow-up prompt. */
  lemma FollowUpUsesFirstFive(topic: string, docs: seq<SourceDoc>)
    requires |docs| > DigestLimit
    ensures FollowUpPrompt(topic, docs) == FollowUpPrompt(topic, docs[..DigestLimit])
  {
    assert Prefix(docs[..DigestLimit], DigestLimit) == Prefix(docs, DigestLimit);
  }

  predicate IsDigit(c: char) {
    '0' <= c <= '9'
  }

  /** What the parser accepts as a question. */
  predicate IsQuestion(q: string) {
    q != [] && q[|q| - 1] == '?' && IsStripped(q)
  }

  /**
   * The question on one line of the reply, if any: the stripped line must
   * start with a digit or `-`; the question is the stripped text after
   * the first `-` when the line has one, else after the first `.`; it
   * must be non-empty and end with `?`.
   */
  function QuestionOf(line: string): (q: Option<string>)
    ensures q.Some? ==> IsQuestion(q.value)
    ensures q.Some? ==> var l := Strip(line); l != [] && (IsDigit(l[0]) || l[0] == '-')
  {
    var l := Strip(line);
    if l == [] || !(IsDigit(l[0]) || l[0] == '-') then None
    else
      var q := if '-' in l then Strip(AfterFirst(l, '-')) else Strip(AfterFirst(l, '.'));
      if q != [] && q[|q| - 1] == '?' then Some(q) else None
  }

  /** The values held by the `Some` entries, in order. */
  function Values(os: seq<Option<string>>): (vs: seq<string>)
    ensures |vs| <= |os|
  {
    if os == [] then []
    else
      match os[0]
      case Some(v) => [v] + Values(os[1..])
      case None => Values(os[1..])
  }

  lemma {:induction false} ValuesAppend(a: seq<Option<string>>, b: seq<Option<string>>)
    ensures Values(a + b) == Values(a) + Values(b)
    decreases |a|
  {
    if a == [] {
      assert a + b == b;
    } else {
      assert (a + b)[0] == a[0];
      assert (a + b)[1..] == a[1..] + b;
      ValuesAppend(a[1..], b);
    }
  }

  /** Every value comes from an entry. */
  lemma {:induction false} ValuesSound(os: seq<Option<string>>, k: nat)
    requires k < |Values(os)|
    ensures exists j :: 0 <= j < |os| && os[j] == Some(Values(os)[k])
    decreases |os|
  {
    var rest := Values(os[1..]);
    if os[0].Some? && k == 0 {
      assert os[0] == Some(Values(os)[0]);
    } else {
      var k' := if os[0].Some? then k - 1 else k;
      assert Values(os)[k] == rest[k'];
      ValuesSound(os[1..], k');
      var j :| 0 <= j < |os[1..]| && os[1..][j] == Some(rest[k']);
      assert os[j + 1] == os[1..][j];
    }
  }

  /** Every `Some` entry contributes its value. */
  lemma {:induction false} ValuesComplete(os: seq<Option<string>>, j: nat)
    requires j < |os| && os[j].Some?
    ensures os[j].value in Values(os)
    decreases |os|
  {
    if j > 0 {
      ValuesComplete(os[1..], j - 1);
      assert os[1..][j - 1] == os[j];
    }
  }

  /** The outcome of each line. */
  function LineQuestions(lines: seq<string>): (os: seq<Option<string>>)
    ensures |os| == |lines|
    ensures forall j :: 0 <= j < |lines| ==> os[j] == QuestionOf(lines[j])
  {
    seq(|lines|, j requires 0 <= j < |lines| => QuestionOf(lines[j]))
  }

  /** The questions of the lines, in order. */
  function Candidates(lines: seq<string>): (qs: seq<string>)
    ensures |qs| <= |lines|
    ensures forall k :: 0 <= k < |qs| ==> IsQuestion(qs[k])
  {
    var os := LineQuestions(lines);
    var qs := Values(os);
    assert forall k :: 0 <= k < |qs| ==> IsQuestion(qs[k]) by {
      forall k | 0 <= k < |qs| ensures IsQuestion(qs[k]) {
        ValuesSound(os, k);
      }
    }
    qs
  }

  /** Reading the lines one after another reads each part in turn. */
  lemma CandidatesAppend(a: seq<string>, b: seq<string>)
    ensures Candidates(a + b) == Candidates(a) + Candidates(b)
  {
    assert LineQuestions(a + b) == LineQuestions(a) + LineQuestions(b);
    ValuesAppend(LineQuestions(a), LineQuestions(b));
  }

  /** Some line of `lines` holds the question `q`. */
  predicate OnSomeLine(lines: seq<string>, q: string) {
    exists j :: 0 <= j < |lines| && QuestionOf(lines[j]) == Some(q)
  }

  /**
   * The questions found are exactly those of the lines that hold one:
   * each comes from some line, and every line's question is found.
   */
  lemma CandidatesFromLines(lines: seq<string>)
    ensures forall k :: 0 <= k < |Candidates(lines)| ==> OnSomeLine(lines, Candidates(lines)[k])
    ensures forall j :: 0 <= j < |lines| && QuestionOf(lines[j]).Some? ==>
      QuestionOf(lines[j]).value in Candidates(lines)
  {
    var os := LineQuestions(lines);
    forall k | 0 <= k < |Candidates(lines)| ensures OnSomeLine(lines, Candidates(lines)[k]) {
      ValuesSound(os, k);
      var j :| 0 <= j < |os| && os[j] == Some(Values(os)[k]);
      assert QuestionOf(lines[j]) == Some(Candidates(lines)[k]);
    }
    forall j | 0 <= j < |lines| && QuestionOf(lines[j]).Some?
      ensures QuestionOf(lines[j]).value in Candidates(lines)
    {
      ValuesComplete(os, j);
    }
  }

  /** The first five questions found on the reply's lines. */
  function ParseQuestions(response: string): (qs: seq<string>)
    ensures |qs| <= MaxQuestions
    ensures forall k :: 0 <= k < |qs| ==> IsQuestion(qs[k])
    ensures qs <= Candidates(Split(response, '\n'))
    ensures var found := Candidates(Split(response, '\n'));
      |qs| == if |found| < MaxQuestions then |found| else MaxQuestions
  {
    Prefix(Candidates(Split(response, '\n')), MaxQuestions)
  }

  /** `generate_follow_up_questions`: no documents, no questions and no model call. */
  function FollowUpQuestions(topic: string, docs: seq<SourceDoc>, llm: string -> string): (qs: seq<string>)
    ensures docs == [] ==> qs == []
    ensures |qs| <= MaxQuestions
    ensures forall k :: 0 <= k < |qs| ==> IsQuestion(qs[k])
  {
    if docs == [] then [] else ParseQuestions(llm(FollowUpPrompt(topic, docs)))
  }

  /**
   * The question parsing as evidently intended: the text after the first
   * `-` only for a bulleted line, the text after the first `.` for a
   * numbered one.
   */
  function IntendedQuestionOf(line: string): (q: Option<string>)
    ensures q.Some? ==> IsQuestion(q.value)
    ensures q.Some? ==> var l := Strip(line); l != [] && (IsDigit(l[0]) || l[0] == '-')
  {
    var l := Strip(line);
    if l == [] || !(IsDigit(l[0]) || l[0] == '-') then None
    else
      var q := if l[0] == '-' then Strip(l[1..]) else Strip(AfterFirst(l, '.'));
      if q != [] && q[|q| - 1] == '?' then Some(q) else None
  }

  /** A numbered line `d. q` holds the question `q`. */
  predicate NumberedLine(line: string, d: char, q: string) {
    IsDigit(d) && IsQuestion(q) && line == [d, '.', ' '] + q
  }

  lemma NumberedLineParts(line: string, d: char, q: string)
    requires NumberedLine(line, d, q)
    ensures Strip(line) == line
    ensures AfterFirst(line, '.') == [' '] + q
    ensures Strip([' '] + q) == q
  {
    assert !IsSpace(line[0]) && line[|line| - 1] == q[|q| - 1];
    StripOfStripped(line);
    assert line[0] != '.' && line[1] == '.';
    assert IndexOf(line, '.') == 1 by {
      assert '.' !in line[..1];
    }
    assert line[2..] == [' '] + q;
    assert ([' '] + q)[1..] == q;
    StripOfStripped(q);
  }

  /** The intended parsing returns the whole question of a numbered line. */
  lemma IntendedKeepsNumberedQuestion(line: string, d: char, q: string)
    requires NumberedLine(line, d, q)
    ensures IntendedQuestionOf(line) == Some(q)
  {
    NumberedLineParts(line, d, q);
  }

  /** As written, a numbered question without a hyphen is read whole. */
  lemma NumberedQuestionWithoutHyphen(line: string, d: char, q: string)
    requires NumberedLine(line, d, q) && '-' !in q
    ensures QuestionOf(line) == Some(q)
  {
    NumberedLineParts(line, d, q);
    assert '-' !in line by {
      assert line == [d, '.', ' '] + q;
    }
  }

  /** A bulleted line `- q` holds the question `q`. */
  predicate BulletedLine(line: string, q: string) {
    IsQuestion(q) && line == ['-', ' '] + q
  }

  /** Both parsings read the whole question of a bulleted line, hyphens in it or not. */
  lemma BulletedQuestion(line: string, q: string)
    requires BulletedLine(line, q)
    ensures QuestionOf(line) == Some(q)
    ensures IntendedQuestionOf(line) == Some(q)
  {
    assert line[|line| - 1] == q[|q| - 1];
    StripOfStripped(line);
    assert IndexOf(line, '-') == 0;
    assert line[1..] == [' '] + q;
    assert ([' '] + q)[1..] == q;
    StripOfStripped(q);
  }

  /**
   * As written, a numbered question with a hyphen anywhere in it is cut
   * at the hyphen: the parsed question is never the whole question.
   */
  lemma HyphenCutsNumberedQuestion(line: string, d: char, q: string)
    requires NumberedLine(line, d, q) && '-' in q
    ensures QuestionOf(line) != Some(q)
  {
    NumberedLineParts(line, d, q);
    assert '-' in line by {
      var j :| 0 <= j < |q| && q[j] == '-';
      assert line[j + 3] == '-';
    }
    var i := IndexOf(line, '-');
    assert i >= 3;
    var a, b := StripIsSlice(line[i + 1..]);
    assert |Strip(line[i + 1..])| < |q|;
  }

  /** A concrete reply line on which the two parsings differ. */
  lemma HyphenExample()
    ensures QuestionOf("1. Is e-mail safe?") == Some("mail safe?")
    ensures IntendedQuestionOf("1. Is e-mail safe?") == Some("Is e-mail safe?")
  {
    var line := "1. Is e-mail safe?";
    var q := "Is e-mail safe?";
    assert !IsSpace(q[0]) && !IsSpace(q[|q| - 1]);
    assert line == ['1', '.', ' '] + q;
    assert q[4] == '-';
    IntendedKeepsNumberedQuestion(line, '1', q);
    HyphenExampleAsWritten();
  }

  /** The as-written half of `HyphenExample`: the text after the hyphen. */
  lemma HyphenExampleAsWritten()
    ensures QuestionOf("1. Is e-mail safe?") == Some("mail safe?")
  {
    var line, cut := "1. Is e-mail safe?", "mail safe?";
    assert IsStripped(line) && IsStripped(cut);
    assert line[7] == '-' && '-' !in line[..7];
    assert line[8..] == cut;
    ReadAfterHyphen(line, 7);
  }

  /**
   * As written, a stripped line opening with a digit whose first hyphen
   * is at `i` yields the stripped text after that hyphen, when that ends
   * with `?`.
   */
  lemma ReadAfterHyphen(line: string, i: nat)
    requires IsStripped(line) && line != [] && IsDigit(line[0])
    requires i < |line| && line[i] == '-' && '-' !in line[..i]
    requires IsQuestion(line[i + 1..])
    ensures QuestionOf(line) == Some(line[i + 1..])
  {
    StripOfStripped(line);
    StripOfStripped(line[i + 1..]);
    assert IndexOf(line, '-') == i;
  }
}

=== FILE: parser.dfy ===
/**
 * `ContentParser.clean_text`: collapse every whitespace run to one space,
 * apply three regular-expression substitutions, and strip the result.
 */
module Parser {
  import opened Wrappers
  import opened Text

  /** The non-whitespace characters of `s`, in order. */
  function NonSpace(s: string): string {
    if s == [] then []
    else if IsSpace(s[0]) then NonSpace(s[1..])
    else [s[0]] + NonSpace(s[1..])
  }

  lemma {:induction false} NonSpaceConcat(a: string, b: string)
    ensures NonSpace(a + b) == NonSpace(a) + NonSpace(b)
  {
    if a != [] {
      assert (a + b)[0] == a[0];
      assert (a + b)[1..] == a[1..] + b;
      NonSpaceConcat(a[1..], b);
      if IsSpace(a[0]) {
        assert NonSpace(a + b) == NonSpace(a[1..] + b);
      } else {
        assert NonSpace(a + b) == [a[0]] + NonSpace(a[1..] + b);
      }
    } else {
      assert a + b == b;
    }
  }

  lemma {:induction false} NonSpaceOfSpaces(s: string)
    requires AllSpace(s)
    ensures NonSpace(s) == []
  {
    if s != [] {
      NonSpaceOfSpaces(s[1..]);
    }
  }

  /** Whitespace-collapsed: every whitespace character is a plain space, and no two are adjacent. */
  predicate Collapsed(s: string) {
    && (forall k :: 0 <= k < |s| && IsSpace(s[k]) ==> s[k] == ' ')
    && (forall k :: 0 <= k < |s| - 1 ==> !(IsSpace(s[k]) && IsSpace(s[k + 1])))
  }

  /** The normal form `clean_text` produces: collapsed and stripped. */
  predicate IsClean(s: string) {
    Collapsed(s) && IsStripped(s)
  }

  /**
   * `re.sub(r'\s+', ' ', s)`: each maximal whitespace run becomes one space.
   * The result is collapsed, keeps the non-whitespace characters in order,
   * is empty only for empty input and starts with whitespace exactly when `s` does.
   */
  function Collapse(s: string): (r: string)
    ensures Collapsed(r)
    ensures NonSpace(r) == NonSpace(s)
    ensures |r| <= |s|
    ensures r == [] <==> s == []
    ensures r != [] ==> (IsSpace(r[0]) <==> IsSpace(s[0]))
    decreases |s|
  {
    if s == [] then []
    else if IsSpace(s[0]) then
      var j := SkipSpaces(s, 0);
      var rest := s[j..];
      var tail := Collapse(rest);
      assert AllSpace(s[..j]) by {
        SkipSpacesSkipsSpace(s, 0);
        assert forall k :: 0 <= k < j ==> s[..j][k] == s[k];
      }
      NonSpaceOfSpaces(s[..j]);
      NonSpaceConcat(s[..j], rest);
      assert s == s[..j] + rest;
      [' '] + tail
    else
      var tail := Collapse(s[1..]);
      assert s == [s[0]] + s[1..];
      [s[0]] + tail
  }

  /** Collapsing leaves a collapsed string as it is. */
  lemma {:induction false} CollapseOfCollapsed(s: string)
    requires Collapsed(s)
    ensures Collapse(s) == s
    decreases |s|
  {
    if s != [] {
      assert Collapsed(s[1..]);
      if IsSpace(s[0]) {
        assert SkipSpaces(s, 0) == 1 by {
          if |s| > 1 {
            assert !IsSpace(s[1]);
          }
        }
      }
      CollapseOfCollapsed(s[1..]);
    }
  }

  /** A word: a non-empty run of non-whitespace characters. */
  predicate IsWord(w: string) {
    w != [] && forall k :: 0 <= k < |w| ==> !IsSpace(w[k])
  }

  /** The first index at or after `i` that holds whitespace, or `|s|`. */
  function SkipWord(s: string, i: nat): (j: nat)
    requires i <= |s|
    ensures i <= j <= |s|
    ensures forall k :: i <= k < j ==> !IsSpace(s[k])
    ensures j < |s| ==> IsSpace(s[j])
    decreases |s| - i
  {
    if i == |s| || IsSpace(s[i]) then i else SkipWord(s, i + 1)
  }

  /** The words of `s`: its maximal runs of non-whitespace characters, in order. */
  function Words(s: string): (ws: seq<string>)
    ensures forall k :: 0 <= k < |ws| ==> IsWord(ws[k])
    decreases |s|
  {
    var i := SkipSpaces(s, 0);
    if i == |s| then []
    else
      var j := SkipWord(s, i);
      var w := s[i..j];
      assert IsWord(w) by {
        forall k | 0 <= k < |w| ensures !IsSpace(w[k]) {
          assert w[k] == s[i + k];
        }
      }
      [w] + Words(s[j..])
  }

  /** One space when `s` starts with whitespace, nothing otherwise. */
  function LeadSpace(s: string): string {
    if s != [] && IsSpace(s[0]) then " " else ""
  }

  /** One space when `s` ends with whitespace, nothing otherwise. */
  function TrailSpace(s: string): string {
    if s != [] && IsSpace(s[|s| - 1]) then " " else ""
  }

  /** Collapsing a leading whitespace run leaves one space before the rest. */
  lemma CollapseSkipsSpaces(s: string)
    ensures Collapse(s) == LeadSpace(s) + Collapse(s[SkipSpaces(s, 0)..])
  {
    if s != [] && !IsSpace(s[0]) {
      assert s[0..] == s;
    }
  }

  /** A run `s[i..j]` of non-whitespace at the front of `s[i..]` is copied unchanged. */
  lemma {:induction false} CollapseRun(s: string, i: nat, j: nat)
    requires i < j <= |s|
    requires forall k :: i <= k < j ==> !IsSpace(s[k])
    ensures Collapse(s[i..]) == s[i..j] + Collapse(s[j..])
    decreases j - i
  {
    assert s[i..][1..] == s[i + 1..];
    var c := Collapse(s[j..]);
    if i + 1 < j {
      CollapseRun(s, i + 1, j);
      ConsSlice(s, i, j, c);
    } else {
      assert s[i..j] == [s[i]];
    }
  }

  lemma ConsSlice(s: string, i: nat, j: nat, c: string)
    requires i < j <= |s|
    ensures [s[i]] + (s[i + 1..j] + c) == s[i..j] + c
  {
    assert s[i..j] == [s[i]] + s[i + 1..j];
  }

  /** Joining a word in front of further words puts one space between. */
  lemma JoinCons(w: string, ws: seq<string>)
    ensures ws == [] ==> Join([w] + ws, " ") == w
    ensures ws != [] ==> Join([w] + ws, " ") == w + " " + Join(ws, " ")
  {
    assert ([w] + ws)[1..] == ws;
  }

  /**
   * Collapsing keeps the words of `s` in order, separated by exactly one
   * space, with one space at either end where `s` has whitespace there; a
   * non-empty string without words collapses to a single space.
   */
  lemma {:induction false} CollapseWords(s: string)
    ensures Words(s) == [] ==> Collapse(s) == (if s == [] then "" else " ")
    ensures Words(s) != [] ==> Collapse(s) == LeadSpace(s) + Join(Words(s), " ") + TrailSpace(s)
    decreases |s|
  {
    if s != [] {
      var i := SkipSpaces(s, 0);
      CollapseSkipsSpaces(s);
      if i == |s| {
        assert s[i..] == [];
        assert IsSpace(s[0]);
      } else {
        var j := SkipWord(s, i);
        CollapseWords(s[j..]);
        CollapseWordsStep(s, i, j);
      }
    }
  }

  /** The step of `CollapseWords` past the first word, given its statement for the rest. */
  lemma CollapseWordsStep(s: string, i: nat, j: nat)
    requires i == SkipSpaces(s, 0) && i < |s| && j == SkipWord(s, i)
    requires Words(s[j..]) == [] ==> Collapse(s[j..]) == (if s[j..] == [] then "" else " ")
    requires Words(s[j..]) != [] ==>
      Collapse(s[j..]) == LeadSpace(s[j..]) + Join(Words(s[j..]), " ") + TrailSpace(s[j..])
    ensures Words(s) != [] && Collapse(s) == LeadSpace(s) + Join(Words(s), " ") + TrailSpace(s)
  {
    CollapseFront(s, i, j);
    WordsFront(s, i, j);
    WordlessEndsInSpace(s[j..]);
    WordsJoinStep(s, i, j, Collapse(s[j..]), Words(s[j..]));
  }

  /** Leading whitespace becomes one space and the first word is copied. */
  lemma CollapseFront(s: string, i: nat, j: nat)
    requires i == SkipSpaces(s, 0) && i < |s| && j == SkipWord(s, i)
    ensures Collapse(s) == LeadSpace(s) + s[i..j] + Collapse(s[j..])
  {
    CollapseSkipsSpaces(s);
    CollapseFrontWord(s, i, j);
    Assoc(LeadSpace(s), s[i..j], Collapse(s[j..]));
  }

  lemma Assoc(a: string, b: string, c: string)
    ensures a + (b + c) == a + b + c
  {
  }

  /** The first word of `s` is the run after its leading whitespace. */
  lemma WordsFront(s: string, i: nat, j: nat)
    requires i == SkipSpaces(s, 0) && i < |s| && j == SkipWord(s, i)
    ensures Words(s) == [s[i..j]] + Words(s[j..])
  {
  }

  /** A non-empty string without words ends in whitespace. */
  lemma WordlessEndsInSpace(s: string)
    ensures s != [] && Words(s) == [] ==> IsSpace(s[|s| - 1])
  {
    if s != [] && Words(s) == [] {
      SkipSpacesSkipsSpace(s, 0);
    }
  }

  /**
   * The string algebra of that step: a leading space, the first word
   * `s[i..j]`, then `c`, the rest `s[j..]` with its words `ws` joined by
   * single spaces, is all the words joined by single spaces between the end
   * spaces.
   */
  lemma WordsJoinStep(s: string, i: nat, j: nat, c: string, ws: seq<string>)
    requires i < j <= |s| && !IsSpace(s[j - 1])
    requires j < |s| ==> IsSpace(s[j])
    requires j == |s| ==> ws == []
    requires ws == [] && j < |s| ==> IsSpace(s[|s| - 1])
    requires ws == [] ==> c == (if s[j..] == [] then "" else " ")
    requires ws != [] ==> c == LeadSpace(s[j..]) + Join(ws, " ") + TrailSpace(s[j..])
    ensures LeadSpace(s) + s[i..j] + c == LeadSpace(s) + Join([s[i..j]] + ws, " ") + TrailSpace(s)
  {
    var w, rest := s[i..j], s[j..];
    JoinCons(w, ws);
    if rest == [] {
      assert TrailSpace(s) == "";
    } else {
      assert rest[0] == s[j] && rest[|rest| - 1] == s[|s| - 1];
      assert TrailSpace(rest) == TrailSpace(s);
      if ws == [] {
        assert c == " " && TrailSpace(s) == " ";
      } else {
        assert LeadSpace(rest) == " ";
        Regroup(LeadSpace(s), w, Join(ws, " "), TrailSpace(s));
      }
    }
  }

  lemma Regroup(l: string, w: string, j: string, t: string)
    ensures l + w + (" " + j + t) == l + (w + " " + j) + t
  {
  }

  /** After the leading whitespace, the first word of `s` is copied unchanged. */
  lemma CollapseFrontWord(s: string, i: nat, j: nat)
    requires i == SkipSpaces(s, 0) && i < |s| && j == SkipWord(s, i)
    ensures Collapse(s[i..]) == s[i..j] + Collapse(s[j..])
  {
    CollapseRun(s, i, j);
  }

  /** Joining words with single spaces gives a non-empty string with no whitespace at either end. */
  lemma {:induction false} JoinWordsStripped(ws: seq<string>)
    requires ws != [] && forall k :: 0 <= k < |ws| ==> IsWord(ws[k])
    ensures Join(ws, " ") != [] && IsStripped(Join(ws, " "))
    decreases |ws|
  {
    if |ws| > 1 {
      JoinWordsStripped(ws[1..]);
      var j := Join(ws[1..], " ");
      assert Join(ws, " ") == ws[0] + " " + j;
      assert (ws[0] + " " + j)[0] == ws[0][0];
      assert (ws[0] + " " + j)[|ws[0] + " " + j| - 1] == j[|j| - 1];
    } else {
      assert IsWord(ws[0]);
    }
  }

  /** Stripping at most one space from either end of a stripped string gives it back. */
  lemma StripPadded(lead: string, m: string, trail: string)
    requires lead == "" || lead == " "
    requires trail == "" || trail == " "
    requires m != [] && IsStripped(m)
    ensures Strip(lead + m + trail) == m
  {
    StripOfStripped(m);
    var u := m + trail;
    if trail == " " {
      assert u[0] == m[0] && u[|u| - 1] == ' ';
      assert u[..|u| - 1] == m;
    }
    assert Strip(u) == m;
    if lead == " " {
      assert (lead + m + trail)[1..] == u;
    } else {
      assert lead + m + trail == u;
    }
  }

  /** Collapse-then-strip joins the words with single spaces. */
  lemma StripCollapseWords(s: string)
    ensures Strip(Collapse(s)) == Join(Words(s), " ")
  {
    CollapseWords(s);
    if Words(s) != [] {
      JoinWordsStripped(Words(s));
      StripPadded(LeadSpace(s), Join(Words(s), " "), TrailSpace(s));
    } else if s != [] {
      assert Strip(" ") == Strip(" "[1..]);
    }
  }

  /** A slice of a collapsed string is collapsed. */
  lemma CollapsedSlice(s: string, a: nat, b: nat)
    requires Collapsed(s) && a <= b <= |s|
    ensures Collapsed(s[a..b])
  {
    var t := s[a..b];
    forall k | 0 <= k < |t| - 1 ensures !(IsSpace(t[k]) && IsSpace(t[k + 1])) {
      assert t[k] == s[a + k] && t[k + 1] == s[a + k + 1];
    }
  }

  /** Stripping keeps a string collapsed. */
  lemma StripKeepsCollapsed(s: string)
    requires Collapsed(s)
    ensures Collapsed(Strip(s))
  {
    var a, b := StripIsSlice(s);
    CollapsedSlice(s, a, b);
  }

  /** Stripping keeps the non-whitespace characters. */
  lemma StripKeepsNonSpace(s: string)
    ensures NonSpace(Strip(s)) == NonSpace(s)
  {
    var a, b := StripIsSlice(s);
    var pre, r, post := s[..a], Strip(s), s[b..];
    assert s == pre + r + post;
    NonSpaceConcat(pre + r, post);
    NonSpaceConcat(pre, r);
    NonSpaceOfSpaces(pre);
    NonSpaceOfSpaces(post);
  }

  // ---------------------------------------------------------------------
  // The three substitutions `clean_text` applies after the collapse.

  /**
   * `re.sub(pattern, repl, t)` for a pattern that never matches the empty
   * string, given as the predicate `isMatch` on candidate matches: scanning
   * left to right, the match starting at the current position is replaced
   * and scanning resumes after it; otherwise the character is kept. A greedy
   * pattern takes its longest match, a lazy one its shortest.
   */
  function Substitute(t: string, isMatch: string -> bool, greedy: bool, repl: string): string
    decreases |t|
  {
    if t == [] then []
    else match MatchEnd(t, isMatch, greedy)
      case Some(j) => repl + Substitute(t[j..], isMatch, greedy, repl)
      case None => [t[0]] + Substitute(t[1..], isMatch, greedy, repl)
  }

  /** The end of the match at the start of `t`, if there is one. */
  function MatchEnd(t: string, isMatch: string -> bool, greedy: bool): (r: Option<nat>)
    ensures r.Some? ==> 1 <= r.value <= |t| && isMatch(t[..r.value])
    ensures r.None? ==> forall j :: 1 <= j <= |t| ==> !isMatch(t[..j])
  {
    if greedy then LongestMatch(t, isMatch, |t|) else ShortestMatch(t, isMatch, 1)
  }

  function LongestMatch(t: string, isMatch: string -> bool, j: nat): (r: Option<nat>)
    requires j <= |t|
    ensures r.Some? ==> 1 <= r.value <= j && isMatch(t[..r.value])
    ensures r.Some? ==> forall j' :: r.value < j' <= j ==> !isMatch(t[..j'])
    ensures r.None? ==> forall j' :: 1 <= j' <= j ==> !isMatch(t[..j'])
  {
    if j == 0 then None
    else if isMatch(t[..j]) then Some(j)
    else LongestMatch(t, isMatch, j - 1)
  }

  function ShortestMatch(t: string, isMatch: string -> bool, j: nat): (r: Option<nat>)
    requires 1 <= j
    ensures r.Some? ==> j <= r.value <= |t| && isMatch(t[..r.value])
    ensures r.Some? ==> forall j' :: j <= j' < r.value ==> !isMatch(t[..j'])
    ensures r.None? ==> forall j' :: j <= j' <= |t| ==> !isMatch(t[..j'])
    decreases |t| - j
  {
    if j > |t| then None
    else if isMatch(t[..j]) then Some(j)
    else ShortestMatch(t, isMatch, j + 1)
  }

  /** Every string the pattern matches contains a newline. */
  ghost predicate NeedsNewline(isMatch: string -> bool) {
    forall m :: isMatch(m) ==> '\n' in m
  }

  /** A pattern that needs a newline leaves newline-free text unchanged. */
  lemma {:induction false} SubstituteWithoutNewline(t: string, isMatch: string -> bool, greedy: bool, repl: string)
    requires NeedsNewline(isMatch) && '\n' !in t
    ensures Substitute(t, isMatch, greedy, repl) == t
    decreases |t|
  {
    if t != [] {
      assert '\n' !in t[1..];
      SubstituteWithoutNewline(t[1..], isMatch, greedy, repl);
    }
  }

  /** Python's `re.IGNORECASE` comparison of `c` with lower-case ASCII letter `lower`. */
  predicate FoldEq(c: char, lower: char)
    requires 'a' <= lower <= 'z'
  {
    c == lower || c as int == lower as int - 32
  }

  /** `s` starts with `word` (lower-case ASCII), ignoring case. */
  predicate StartsWithFold(s: string, word: string)
    requires forall k :: 0 <= k < |word| ==> 'a' <= word[k] <= 'z'
  {
    |word| <= |s| && forall k :: 0 <= k < |word| ==> FoldEq(s[k], word[k])
  }

  /** `word` occurs in `s`, ignoring case. */
  predicate ContainsFold(s: string, word: string)
    requires forall k :: 0 <= k < |word| ==> 'a' <= word[k] <= 'z'
  {
    exists i | 0 <= i <= |s| - |word| :: StartsWithFold(s[i..], word)
  }

  /** Candidate matches of `\n\s*\n`: a run of blank lines. */
  predicate BlankLines(m: string) {
    && |m| >= 2 && m[0] == '\n' && m[|m| - 1] == '\n'
    && forall k :: 0 < k < |m| - 1 ==> IsSpace(m[k])
  }

  /**
   * Candidate matches of `first.*?second.*?\n` under `re.IGNORECASE`: `.`
   * excludes the newline, so the match ends at the first newline after `first`.
   */
  predicate PhraseToLineEnd(m: string, first: string, second: string)
    requires forall k :: 0 <= k < |first| ==> 'a' <= first[k] <= 'z'
    requires forall k :: 0 <= k < |second| ==> 'a' <= second[k] <= 'z'
  {
    && |m| > |first| && m[|m| - 1] == '\n' && '\n' !in m[..|m| - 1]
    && StartsWithFold(m, first)
    && ContainsFold(m[|first|..|m| - 1], second)
  }

  /** Candidate matches of `Cookie.*?policy.*?\n`: a cookie-policy line. */
  predicate CookiePolicy(m: string) {
    PhraseToLineEnd(m, "cookie", "policy")
  }

  /** Candidate matches of `Accept.*?cookies.*?\n`: a cookie-consent line. */
  predicate AcceptCookies(m: string) {
    PhraseToLineEnd(m, "accept", "cookies")
  }

  lemma PatternsNeedNewline()
    ensures NeedsNewline(BlankLines)
    ensures NeedsNewline(CookiePolicy)
    ensures NeedsNewline(AcceptCookies)
  {
    forall m | CookiePolicy(m) ensures '\n' in m {
      assert m[|m| - 1] == '\n';
    }
    forall m | AcceptCookies(m) ensures '\n' in m {
      assert m[|m| - 1] == '\n';
    }
  }

  /** The three substitutions, in order: blank-line runs, then cookie-policy and cookie-consent lines. */
  function Substitutions(s: string): string {
    var blankLines := Substitute(s, BlankLines, true, "\n\n");
    var noCookiePolicy := Substitute(blankLines, CookiePolicy, false, "");
    Substitute(noCookiePolicy, AcceptCookies, false, "")
  }

  /**
   * `clean_text`: empty input gives `""`; otherwise collapse whitespace,
   * apply the three substitutions, and strip. The result is the words of
   * `text` joined by single spaces: in normal form, holding no newline, and
   * keeping the non-whitespace characters of `text` in order.
   */
  function CleanText(text: string): (r: string)
    ensures text == [] ==> r == []
    ensures r == Join(Words(text), " ")
    ensures IsClean(r)
    ensures '\n' !in r
    ensures NonSpace(r) == NonSpace(text)
  {
    if text == [] then []
    else
      var collapsed := Collapse(text);
      SubstitutionsAfterCollapse(collapsed);
      StripKeepsCollapsed(collapsed);
      StripKeepsNonSpace(collapsed);
      CollapsedHasNoNewline(Strip(collapsed));
      StripCollapseWords(text);
      Strip(Substitutions(collapsed))
  }

  /** A collapsed string holds no newline: newlines are whitespace but not the space. */
  lemma CollapsedHasNoNewline(s: string)
    requires Collapsed(s)
    ensures '\n' !in s
  {
    if '\n' in s {
      var k :| 0 <= k < |s| && s[k] == '\n';
      assert IsSpace(s[k]);
    }
  }

  /** On collapsed text, which holds no newline, the three substitutions never fire. */
  lemma SubstitutionsAfterCollapse(s: string)
    requires Collapsed(s)
    ensures Substitutions(s) == s
  {
    CollapsedHasNoNewline(s);
    PatternsNeedNewline();
    SubstituteWithoutNewline(s, BlankLines, true, "\n\n");
    SubstituteWithoutNewline(s, CookiePolicy, false, "");
    SubstituteWithoutNewline(s, AcceptCookies, false, "");
  }

  /** `clean_text` is collapse-then-strip. */
  lemma CleanTextEquation(text: string)
    ensures CleanText(text) == Strip(Collapse(text))
  {
    if text != [] {
      SubstitutionsAfterCollapse(Collapse(text));
    }
  }

  /** `clean_text` changes a string exactly when it is not already in normal form. */
  lemma CleanTextFixedPoints(text: string)
    ensures CleanText(text) == text <==> IsClean(text)
  {
    if IsClean(text) {
      CleanTextEquation(text);
      CollapseOfCollapsed(text);
      StripOfStripped(text);
    }
  }

  /** `clean_text` is idempotent. */
  lemma CleanTextIdempotent(text: string)
    ensures CleanText(CleanText(text)) == CleanText(text)
  {
    CleanTextFixedPoints(CleanText(text));
  }
}

=== FILE: ranking.dfy ===
/**
 * Exhaustive nearest-neighbour search by squared Euclidean distance, as a
 * flat L2 index performs it, and the score the store derives from a
 * distance. Coordinates are integers: float32
 * rounding is not modelled.
 */
module Ranking {

  /**
   * An embedding with fixed-point coordinates: the model works over
   * unbounded integers instead of float32.
   */
  type Vector = seq<int>

  /** Sum of squared coordinate differences. */
  function SquaredL2(a: Vector, b: Vector): (d: int)
    requires |a| == |b|
    ensures d >= 0
    decreases |a|
  {
    if a == [] then 0
    else (a[0] - b[0]) * (a[0] - b[0]) + SquaredL2(a[1..], b[1..])
  }

  /** The distance vanishes exactly between equal vectors. */
  lemma {:induction false} SquaredL2ZeroIff(a: Vector, b: Vector)
    requires |a| == |b|
    ensures SquaredL2(a, b) == 0 <==> a == b
    decreases |a|
  {
    if a != [] {
      SquaredL2ZeroIff(a[1..], b[1..]);
      var x := a[0] - b[0];
      assert SquaredL2(a, b) == x * x + SquaredL2(a[1..], b[1..]);
      if x != 0 {
        SquarePositive(x);
      } else if a[1..] == b[1..] {
        assert a == [a[0]] + a[1..] && b == [b[0]] + b[1..];
      }
    }
  }

  lemma SquarePositive(x: int)
    requires x != 0
    ensures x * x > 0
  {
    if x < 0 {
      var y := -x;
      assert y * y == x * x;
      assert y * y > 0;
    }
  }

  /** The distance does not depend on the order of its arguments. */
  lemma {:induction false} SquaredL2Symmetric(a: Vector, b: Vector)
    requires |a| == |b|
    ensures SquaredL2(a, b) == SquaredL2(b, a)
    decreases |a|
  {
    if a != [] {
      SquaredL2Symmetric(a[1..], b[1..]);
      assert (a[0] - b[0]) * (a[0] - b[0]) == (b[0] - a[0]) * (b[0] - a[0]);
    }
  }

  /** `1 / (1 + distance)`: the similarity reported with each hit. */
  function Similarity(d: int): (s: real)
    requires d >= 0
    ensures 0.0 < s <= 1.0
    ensures s == 1.0 <==> d == 0
  {
    var s := 1.0 / (1.0 + d as real);
    assert s * (1.0 + d as real) == 1.0;
    if d == 0 then s else assert s * 1.0 < s * (1.0 + d as real); s
  }

  /** A larger distance gives a strictly smaller similarity, and conversely. */
  lemma SimilarityAntitone(d1: int, d2: int)
    requires d1 >= 0 && d2 >= 0
    ensures d1 < d2 <==> Similarity(d1) > Similarity(d2)
    ensures d1 == d2 <==> Similarity(d1) == Similarity(d2)
  {
    if d1 < d2 {
      ReciprocalDecreases(1.0 + d1 as real, 1.0 + d2 as real);
    } else if d2 < d1 {
      ReciprocalDecreases(1.0 + d2 as real, 1.0 + d1 as real);
    }
  }

  lemma ReciprocalDecreases(a: real, b: real)
    requires 0.0 < a < b
    ensures 1.0 / b < 1.0 / a
  {
    var ia, ib := 1.0 / a, 1.0 / b;
    assert ia * a == 1.0 && ib * b == 1.0;
    assert ib > 0.0;
    assert ib * a < ib * b;
    assert (ia - ib) * a > 0.0;
  }

  /** All vectors of `vs` have width `w`. */
  predicate AllWidth(vs: seq<Vector>, w: nat) {
    forall i :: 0 <= i < |vs| ==> |vs[i]| == w
  }

  /** The distance from the query to each stored vector, by position. */
  function Distances(vs: seq<Vector>, q: Vector): (ds: seq<int>)
    requires AllWidth(vs, |q|)
    ensures |ds| == |vs|
    ensures forall i :: 0 <= i < |ds| ==> ds[i] == SquaredL2(vs[i], q)
  {
    seq(|vs|, i requires 0 <= i < |vs| => SquaredL2(vs[i], q))
  }

  predicate InRange(ds: seq<int>, s: seq<nat>) {
    forall i :: 0 <= i < |s| ==> s[i] < |ds|
  }

  /**
   * The strict order of results: smaller distance first, equal distances
   * by position.
   */
  predicate Before(ds: seq<int>, i: nat, j: nat)
    requires i < |ds| && j < |ds|
  {
    ds[i] < ds[j] || (ds[i] == ds[j] && i < j)
  }

  /** Every position precedes every later one. */
  predicate Ranked(ds: seq<int>, s: seq<nat>)
    requires InRange(ds, s)
  {
    forall i, j :: 0 <= i < j < |s| ==> Before(ds, s[i], s[j])
  }

  /** Put `x` into a ranked list at its place. */
  function Insert(ds: seq<int>, x: nat, s: seq<nat>): (r: seq<nat>)
    requires x < |ds| && InRange(ds, s)
    ensures InRange(ds, r)
    ensures multiset(r) == multiset(s) + multiset{x}
    ensures |r| == |s| + 1
  {
    if s == [] then [x]
    else if Before(ds, x, s[0]) then [x] + s
    else
      var rest := Insert(ds, x, s[1..]);
      assert s == [s[0]] + s[1..];
      [s[0]] + rest
  }

  lemma {:induction false} InsertRanked(ds: seq<int>, x: nat, s: seq<nat>)
    requires x < |ds| && InRange(ds, s) && Ranked(ds, s) && x !in s
    ensures Ranked(ds, Insert(ds, x, s))
    decreases |s|
  {
    if s != [] && !Before(ds, x, s[0]) {
      assert Before(ds, s[0], x);
      RankedTail(ds, s);
      InsertRanked(ds, x, s[1..]);
      var rest := Insert(ds, x, s[1..]);
      forall j | 0 <= j < |rest| ensures Before(ds, s[0], rest[j]) {
        InsertMembers(ds, x, s[1..], rest[j]);
        if rest[j] != x {
          var p :| 0 <= p < |s[1..]| && s[1..][p] == rest[j];
          assert s[p + 1] == rest[j];
        }
      }
      RankedCons(ds, s[0], rest);
    }
  }

  lemma RankedTail(ds: seq<int>, s: seq<nat>)
    requires InRange(ds, s) && Ranked(ds, s) && s != []
    ensures InRange(ds, s[1..]) && Ranked(ds, s[1..])
  {
    forall i, j | 0 <= i < j < |s| - 1 ensures Before(ds, s[1..][i], s[1..][j]) {
      assert s[1..][i] == s[i + 1] && s[1..][j] == s[j + 1];
    }
  }

  /** A head before every element of a ranked list extends it. */
  lemma RankedCons(ds: seq<int>, h: nat, rest: seq<nat>)
    requires h < |ds| && InRange(ds, rest) && Ranked(ds, rest)
    requires forall j :: 0 <= j < |rest| ==> Before(ds, h, rest[j])
    ensures InRange(ds, [h] + rest) && Ranked(ds, [h] + rest)
  {
    var r := [h] + rest;
    forall i, j | 0 <= i < j < |r| ensures Before(ds, r[i], r[j]) {
      if i == 0 {
        assert r[j] == rest[j - 1];
      } else {
        assert r[i] == rest[i - 1] && r[j] == rest[j - 1];
      }
    }
  }

  lemma InsertMembers(ds: seq<int>, x: nat, s: seq<nat>, y: nat)
    requires x < |ds| && InRange(ds, s)
    ensures y in Insert(ds, x, s) <==> y == x || y in s
  {
    var r := Insert(ds, x, s);
    assert y in r <==> y in multiset(r);
    assert y in s <==> y in multiset(s);
  }

  /** The positions `idxs` in ranked order. */
  function SortIndices(ds: seq<int>, idxs: seq<nat>): (r: seq<nat>)
    requires InRange(ds, idxs)
    ensures InRange(ds, r)
    ensures multiset(r) == multiset(idxs)
    ensures |r| == |idxs|
  {
    if idxs == [] then []
    else
      assert idxs == [idxs[0]] + idxs[1..];
      Insert(ds, idxs[0], SortIndices(ds, idxs[1..]))
  }

  predicate Distinct(s: seq<nat>) {
    forall i, j :: 0 <= i < j < |s| ==> s[i] != s[j]
  }

  lemma {:induction false} SortIndicesRanked(ds: seq<int>, idxs: seq<nat>)
    requires InRange(ds, idxs) && Distinct(idxs)
    ensures Ranked(ds, SortIndices(ds, idxs))
    decreases |idxs|
  {
    if idxs != [] {
      SortIndicesRanked(ds, idxs[1..]);
      var rest := SortIndices(ds, idxs[1..]);
      assert idxs[0] !in idxs[1..];
      assert idxs[0] !in multiset(rest);
      InsertRanked(ds, idxs[0], rest);
    }
  }

  /** `0, 1, …, n-1`. */
  function Positions(n: nat): (r: seq<nat>)
    ensures |r| == n
    ensures forall i :: 0 <= i < n ==> r[i] == i
  {
    seq(n, i requires 0 <= i < n => i)
  }

  /** All positions, nearest first. */
  function Rank(ds: seq<int>): (r: seq<nat>)
    ensures InRange(ds, r) && |r| == |ds|
  {
    SortIndices(ds, Positions(|ds|))
  }

  /** The positions of the `k` nearest vectors (all of them if fewer), nearest first. */
  function TopK(ds: seq<int>, k: int): (r: seq<nat>)
    ensures InRange(ds, r)
    ensures |r| == if k <= 0 then 0 else if k < |ds| then k else |ds|
  {
    var rank := Rank(ds);
    if k <= 0 then [] else if k < |ds| then rank[..k] else rank
  }

  lemma RankRanked(ds: seq<int>)
    ensures Ranked(ds, Rank(ds))
  {
    SortIndicesRanked(ds, Positions(|ds|));
  }

  /** Every position appears in the ranking. */
  lemma RankComplete(ds: seq<int>, j: nat)
    requires j < |ds|
    ensures j in Rank(ds)
  {
    var ps := Positions(|ds|);
    assert ps[j] == j;
    assert j in multiset(ps);
  }

  /**
   * The top `k` are distinct positions in ranked order, and every position
   * left out comes after all of them: the `k` smallest distances, ascending.
   */
  lemma TopKIsNearest(ds: seq<int>, k: int)
    ensures Ranked(ds, TopK(ds, k))
    ensures Distinct(TopK(ds, k))
    ensures forall i :: 0 <= i && i + 1 < |TopK(ds, k)| ==> ds[TopK(ds, k)[i]] <= ds[TopK(ds, k)[i + 1]]
    ensures forall i, j :: 0 <= i < |TopK(ds, k)| && 0 <= j < |ds| && j !in TopK(ds, k) ==>
      Before(ds, TopK(ds, k)[i], j) && ds[TopK(ds, k)[i]] <= ds[j]
  {
    var rank := Rank(ds);
    var r := TopK(ds, k);
    RankRanked(ds);
    assert r == rank[..|r|];
    forall i, j | 0 <= i < |r| && 0 <= j < |ds| && j !in r
      ensures Before(ds, r[i], j)
    {
      RankComplete(ds, j);
      var p :| 0 <= p < |rank| && rank[p] == j;
      assert forall q :: 0 <= q < |r| ==> rank[q] != j;
      assert rank[i] == r[i];
    }
  }
}

=== FILE: records.dfy ===
/**
 * Turning fetched documents into the chunk records that are embedded and
 * stored: every non-empty document is chunked with the default overlap and
 * each chunk carries its document's provenance.
 */
module ChunkRecords {
  import opened Text
  import opened Documents
  import opened Chunker

  /** The `metadata` dict of a record. */
  datatype ChunkMetadata = ChunkMetadata(filename: string, kind: string, authors: string, publishDate: string)

  /** One dict of the processed list. */
  datatype ChunkRecord = ChunkRecord(
    content: string,
    title: string,
    url: string,
    source: string,
    chunkId: nat,
    totalChunks: nat,
    metadata: ChunkMetadata)

  function ContentOf(doc: SourceDoc): string {
    Get(doc, "content", "")
  }

  function MetadataOf(doc: SourceDoc): ChunkMetadata {
    ChunkMetadata(Get(doc, "filename", ""), Get(doc, "type", ""),
                  Get(doc, "authors", ""), Get(doc, "publish_date", ""))
  }

  /** The record for the `i`-th of `n` chunks of `doc`. */
  function RecordOf(doc: SourceDoc, chunk: string, i: nat, n: nat): ChunkRecord {
    ChunkRecord(chunk, Get(doc, "title", ""), Get(doc, "url", ""), Get(doc, "source", ""),
                i, n, MetadataOf(doc))
  }

  /** A record carries the provenance of `doc`, with `''` for missing fields. */
  predicate FromDocument(r: ChunkRecord, doc: SourceDoc) {
    && r.title == Get(doc, "title", "")
    && r.url == Get(doc, "url", "")
    && r.source == Get(doc, "source", "")
    && r.metadata.filename == Get(doc, "filename", "")
    && r.metadata.kind == Get(doc, "type", "")
    && r.metadata.authors == Get(doc, "authors", "")
    && r.metadata.publishDate == Get(doc, "publish_date", "")
  }

  /** The contents of a list of records, in order. */
  function Contents(rs: seq<ChunkRecord>): (cs: seq<string>)
    ensures |cs| == |rs|
  {
    seq(|rs|, i requires 0 <= i < |rs| => rs[i].content)
  }

  /**
   * The records of one document: none when its content is missing or
   * empty, otherwise one per chunk, numbered from 0, each knowing the
   * total and carrying the document's provenance.
   */
  function DocumentRecords(doc: SourceDoc, chunkSize: int): (rs: seq<ChunkRecord>)
    requires ValidParams(chunkSize, DefaultOverlap)
    ensures ContentOf(doc) == [] ==> rs == []
    ensures forall i :: 0 <= i < |rs| ==>
      && rs[i].chunkId == i
      && rs[i].totalChunks == |rs|
      && rs[i].content != []
      && FromDocument(rs[i], doc)
    ensures ContentOf(doc) != [] ==> Contents(rs) == ChunkText(ContentOf(doc), chunkSize, DefaultOverlap)
  {
    var content := ContentOf(doc);
    if content == [] then []
    else
      var chunks := ChunkText(content, chunkSize, DefaultOverlap);
      assert forall i :: 0 <= i < |chunks| ==> chunks[i] != [] by {
        forall i | 0 <= i < |chunks| ensures chunks[i] != [] {
          assert chunks[i] in chunks;
        }
      }
      seq(|chunks|, i requires 0 <= i < |chunks| => RecordOf(doc, chunks[i], i, |chunks|))
  }

  /**
   * A document yields no records exactly when its content is empty or is
   * a long run of whitespace; a short non-empty content is one record
   * holding it unchanged.
   */
  lemma DocumentRecordsEmptyIff(doc: SourceDoc, chunkSize: int)
    requires ValidParams(chunkSize, DefaultOverlap)
    ensures DocumentRecords(doc, chunkSize) == [] <==>
      ContentOf(doc) == [] || (|ContentOf(doc)| > chunkSize && AllSpace(ContentOf(doc)))
    ensures 0 < |ContentOf(doc)| <= chunkSize ==>
      DocumentRecords(doc, chunkSize) == [RecordOf(doc, ContentOf(doc), 0, 1)]
  {
    ChunkTextEmptyIff(ContentOf(doc), chunkSize, DefaultOverlap);
  }

  /**
   * The records of a list of documents: each document's records in turn,
   * documents without content contributing nothing.
   */
  function ProcessDocuments(docs: seq<SourceDoc>, chunkSize: int): (rs: seq<ChunkRecord>)
    requires ValidParams(chunkSize, DefaultOverlap)
    ensures forall r :: r in rs ==> r.content != [] && r.chunkId < r.totalChunks
  {
    if docs == [] then []
    else
      var first := DocumentRecords(docs[0], chunkSize);
      assert forall r :: r in first ==> r.content != [] && r.chunkId < r.totalChunks;
      first + ProcessDocuments(docs[1..], chunkSize)
  }

  /** Processing is compositional over the list of documents. */
  lemma {:induction false} ProcessDocumentsAppend(d1: seq<SourceDoc>, d2: seq<SourceDoc>, chunkSize: int)
    requires ValidParams(chunkSize, DefaultOverlap)
    ensures ProcessDocuments(d1 + d2, chunkSize) ==
      ProcessDocuments(d1, chunkSize) + ProcessDocuments(d2, chunkSize)
    decreases |d1|
  {
    if d1 == [] {
      assert d1 + d2 == d2;
    } else {
      assert (d1 + d2)[1..] == d1[1..] + d2;
      ProcessDocumentsAppend(d1[1..], d2, chunkSize);
    }
  }

  /** Every output record comes from some input document with content. */
  lemma {:induction false} ProcessDocumentsProvenance(docs: seq<SourceDoc>, chunkSize: int, j: nat)
    requires ValidParams(chunkSize, DefaultOverlap)
    requires j < |ProcessDocuments(docs, chunkSize)|
    ensures exists d ::
              && 0 <= d < |docs|
              && ContentOf(docs[d]) != []
              && FromDocument(ProcessDocuments(docs, chunkSize)[j], docs[d])
    decreases |docs|
  {
    var first := DocumentRecords(docs[0], chunkSize);
    if j < |first| {
      assert FromDocument(first[j], docs[0]);
      assert ContentOf(docs[0]) != [];
    } else {
      ProcessDocumentsProvenance(docs[1..], chunkSize, j - |first|);
      var d :| 0 <= d < |docs[1..]| && ContentOf(docs[1..][d]) != [] &&
        FromDocument(ProcessDocuments(docs[1..], chunkSize)[j - |first|], docs[1..][d]);
      assert docs[1..][d] == docs[d + 1];
    }
  }

  /**
   * The loop of the source: walk the documents, skip those without
   * content, and append one record per chunk.
   */
  method ProcessDocumentsLoop(docs: seq<SourceDoc>, chunkSize: int) returns (processed: seq<ChunkRecord>)
    requires ValidParams(chunkSize, DefaultOverlap)
    ensures processed == ProcessDocuments(docs, chunkSize)
  {
    processed := [];
    var k := 0;
    while k < |docs|
      invariant 0 <= k <= |docs|
      invariant processed == ProcessDocuments(docs[..k], chunkSize)
    {
      var batch := DocumentRecordsLoop(docs[k], chunkSize);
      ProcessOne(docs, k, chunkSize);
      processed := processed + batch;
      k := k + 1;
    }
    assert docs[..|docs|] == docs;
  }

  /** The body of the loop for one document: skip it without content, else number its chunks. */
  method DocumentRecordsLoop(doc: SourceDoc, chunkSize: int) returns (batch: seq<ChunkRecord>)
    requires ValidParams(chunkSize, DefaultOverlap)
    ensures batch == DocumentRecords(doc, chunkSize)
  {
    var content := Get(doc, "content", "");
    if content == [] {
      return [];
    }
    var chunks := ChunkText(content, chunkSize, DefaultOverlap);
    batch := NumberChunks(doc, chunks);
  }

  /** `for i, chunk in enumerate(chunks)`: one record per chunk, in order. */
  method NumberChunks(doc: SourceDoc, chunks: seq<string>) returns (batch: seq<ChunkRecord>)
    ensures |batch| == |chunks|
    ensures forall i :: 0 <= i < |chunks| ==> batch[i] == RecordOf(doc, chunks[i], i, |chunks|)
  {
    batch := [];
    var i := 0;
    while i < |chunks|
      invariant 0 <= i <= |chunks|
      invariant |batch| == i
      invariant forall j :: 0 <= j < i ==> batch[j] == RecordOf(doc, chunks[j], j, |chunks|)
    {
      batch := batch + [RecordOf(doc, chunks[i], i, |chunks|)];
      i := i + 1;
    }
  }

  lemma ProcessOne(docs: seq<SourceDoc>, k: nat, chunkSize: int)
    requires ValidParams(chunkSize, DefaultOverlap)
    requires k < |docs|
    ensures ProcessDocuments(docs[..k + 1], chunkSize) ==
      ProcessDocuments(docs[..k], chunkSize) + DocumentRecords(docs[k], chunkSize)
  {
    assert docs[..k + 1] == docs[..k] + [docs[k]];
    ProcessDocumentsAppend(docs[..k], [docs[k]], chunkSize);
    assert ProcessDocuments([docs[k]], chunkSize) == DocumentRecords(docs[k], chunkSize) + ProcessDocuments([], chunkSize);
  }
}

=== FILE: text.dfy ===
/**
 * String helpers shared by the services: Python's notion of whitespace,
 * `str.strip()`, `str.split(sep)` and `sep.join(parts)`.
 */
module Text {

  /**
   * Python's `str.isspace()`, which is also the set the `\s` class of the
   * `re` module matches on `str` patterns: the ASCII controls TAB..CR and
   * FS..US, the space, NEL, NBSP and the Unicode space separators.
   */
  const Whitespace: set<char> := {
    '\t', '\n', '\U{0B}', '\U{0C}', '\r', '\U{1C}', '\U{1D}', '\U{1E}', '\U{1F}', ' ',
    '\U{85}', '\U{A0}', '\U{1680}',
    '\U{2000}', '\U{2001}', '\U{2002}', '\U{2003}', '\U{2004}', '\U{2005}',
    '\U{2006}', '\U{2007}', '\U{2008}', '\U{2009}', '\U{200A}',
    '\U{2028}', '\U{2029}', '\U{202F}', '\U{205F}', '\U{3000}'
  }

  predicate IsSpace(c: char) {
    c in Whitespace
  }

  predicate AllSpace(s: string) {
    forall k :: 0 <= k < |s| ==> IsSpace(s[k])
  }

  /** No whitespace at either end: what `str.strip()` produces. */
  predicate IsStripped(s: string) {
    s == [] || (!IsSpace(s[0]) && !IsSpace(s[|s| - 1]))
  }

  /** The first index at or after `i` that holds no whitespace, or `|s|`. */
  function SkipSpaces(s: string, i: nat): (j: nat)
    requires i <= |s|
    ensures i <= j <= |s|
    ensures j < |s| ==> !IsSpace(s[j])
    decreases |s| - i
  {
    if i == |s| || !IsSpace(s[i]) then i else SkipSpaces(s, i + 1)
  }

  /** Everything `SkipSpaces` steps over is whitespace. */
  lemma {:induction false} SkipSpacesSkipsSpace(s: string, i: nat)
    requires i <= |s|
    ensures forall k :: i <= k < SkipSpaces(s, i) ==> IsSpace(s[k])
    decreases |s| - i
  {
    if i < |s| && IsSpace(s[i]) {
      SkipSpacesSkipsSpace(s, i + 1);
    }
  }

  /**
   * `str.strip()`: whitespace removed from both ends, one character at a
   * time from the front, then from the back.
   */
  function Strip(s: string): (r: string)
    ensures IsStripped(r)
    ensures |r| <= |s|
    decreases |s|
  {
    if s == [] then []
    else if IsSpace(s[0]) then Strip(s[1..])
    else if IsSpace(s[|s| - 1]) then Strip(s[..|s| - 1])
    else s
  }

  /**
   * `Strip(s)` is the slice `s[a..b]` of `s`, and what it removes at either
   * end is all whitespace.
   */
  lemma {:induction false} StripIsSlice(s: string) returns (a: nat, b: nat)
    ensures a <= b <= |s| && Strip(s) == s[a..b]
    ensures AllSpace(s[..a]) && AllSpace(s[b..])
    decreases |s|
  {
    if s == [] {
      a, b := 0, 0;
    } else if IsSpace(s[0]) {
      var a', b' := StripIsSlice(s[1..]);
      a, b := a' + 1, b' + 1;
      SliceAfterFront(s, a', b');
    } else if IsSpace(s[|s| - 1]) {
      a, b := StripIsSlice(s[..|s| - 1]);
      SliceBeforeBack(s, a, b);
    } else {
      a, b := 0, |s|;
      assert s[..0] == [] && s[|s|..] == [];
    }
  }

  /** A slice of `s[1..]` framed by whitespace is a slice of `s` framed by whitespace, when `s[0]` is whitespace. */
  lemma SliceAfterFront(s: string, a: nat, b: nat)
    requires s != [] && IsSpace(s[0]) && a <= b <= |s| - 1
    requires AllSpace(s[1..][..a]) && AllSpace(s[1..][b..])
    ensures s[1..][a..b] == s[a + 1..b + 1]
    ensures AllSpace(s[..a + 1]) && AllSpace(s[b + 1..])
  {
    assert s[..a + 1] == [s[0]] + s[1..][..a];
    assert s[b + 1..] == s[1..][b..];
  }

  /** A slice of `s` minus its last character framed by whitespace is a slice of `s` framed by whitespace, when that character is whitespace. */
  lemma SliceBeforeBack(s: string, a: nat, b: nat)
    requires s != [] && IsSpace(s[|s| - 1]) && a <= b <= |s| - 1
    requires AllSpace(s[..|s| - 1][..a]) && AllSpace(s[..|s| - 1][b..])
    ensures s[..|s| - 1][a..b] == s[a..b]
    ensures AllSpace(s[..a]) && AllSpace(s[b..])
  {
    var t := s[..|s| - 1];
    assert s[..a] == t[..a];
    assert s[b..] == t[b..] + [s[|s| - 1]];
  }

  /** Stripping removes nothing from a string that is already stripped. */
  lemma StripOfStripped(s: string)
    requires IsStripped(s)
    ensures Strip(s) == s
  {
  }

  /** `Strip(s)` is empty exactly when `s` is all whitespace. */
  lemma {:induction false} StripEmptyIff(s: string)
    ensures Strip(s) == [] <==> AllSpace(s)
    decreases |s|
  {
    if s != [] {
      if IsSpace(s[0]) {
        StripEmptyIff(s[1..]);
        assert AllSpace(s) <==> AllSpace(s[1..]) by {
          if AllSpace(s[1..]) {
            forall k | 0 <= k < |s| ensures IsSpace(s[k]) {
              if k > 0 { assert s[k] == s[1..][k - 1]; }
            }
          }
        }
      } else {
        assert !AllSpace(s);
        if IsSpace(s[|s| - 1]) {
          var t := s[..|s| - 1];
          StripEmptyIff(t);
          assert t[0] == s[0];
        }
      }
    }
  }

  /** A non-space final character survives stripping, as its last character. */
  lemma {:induction false} StripKeepsLast(s: string)
    requires s != [] && !IsSpace(s[|s| - 1])
    ensures Strip(s) != [] && Strip(s)[|Strip(s)| - 1] == s[|s| - 1]
    decreases |s|
  {
    if IsSpace(s[0]) {
      assert |s| > 1;
      StripKeepsLast(s[1..]);
    }
  }

  /** Position of the first occurrence of `c` in `s`. */
  function IndexOf(s: string, c: char): (i: nat)
    requires c in s
    ensures i < |s| && s[i] == c && c !in s[..i]
  {
    if s[0] == c then 0
    else
      var j := IndexOf(s[1..], c);
      assert s[..j + 1] == [s[0]] + s[1..][..j];
      j + 1
  }

  /** `sep.join(parts)`. */
  function Join(parts: seq<string>, sep: string): string {
    if |parts| == 0 then []
    else if |parts| == 1 then parts[0]
    else parts[0] + sep + Join(parts[1..], sep)
  }

  /** Total length of `parts`, separators not counted. */
  function TotalLength(parts: seq<string>): nat {
    if parts == [] then 0 else |parts[0]| + TotalLength(parts[1..])
  }

  /** A join adds exactly one separator between each pair of parts. */
  lemma {:induction false} JoinLength(parts: seq<string>, sep: string)
    requires parts != []
    ensures |Join(parts, sep)| == TotalLength(parts) + (|parts| - 1) * |sep|
  {
    if |parts| > 1 {
      JoinLength(parts[1..], sep);
    }
  }

  /**
   * `s.split(sep)`: the pieces between occurrences of `sep`; there is always
   * at least one, none contains `sep`, and joining them gives `s` back.
   */
  function Split(s: string, sep: char): (parts: seq<string>)
    ensures |parts| >= 1
    ensures forall k :: 0 <= k < |parts| ==> sep !in parts[k]
    ensures Join(parts, [sep]) == s
    decreases |s|
  {
    if sep !in s then [s]
    else
      var i := IndexOf(s, sep);
      var rest := Split(s[i + 1..], sep);
      assert s == s[..i] + [sep] + s[i + 1..];
      [s[..i]] + rest
  }

  /** `s.split(c, 1)[-1]`: the text after the first `c`, or all of `s`. */
  function AfterFirst(s: string, c: char): (r: string)
    ensures c in s ==> r == s[IndexOf(s, c) + 1..]
    ensures c !in s ==> r == s
  {
    if c in s then s[IndexOf(s, c) + 1..] else s
  }

  /** `s[:n]` for `n >= 0`, on strings and lists alike: Python clamps the bound to the length. */
  function Prefix<T>(s: seq<T>, n: nat): (r: seq<T>)
    ensures |r| == if n < |s| then n else |s|
    ensures r <= s
  {
    if n < |s| then s[..n] else s
  }
}

=== FILE: vector_store.dfy ===
/**
 * The embedding store: an optional flat L2 index (the stored vectors, in
 * insertion order), the documents aligned with them, and the dimension
 * fixed by the first batch. Every operation is a pure transition that
 * returns the next state together with the source's return value. The
 * store is generic in the document type.
 */
module VectorStore {
  import opened Wrappers
  import opened Ranking

  datatype Store<D> = Store(index: Option<seq<Vector>>, documents: seq<D>, dimension: Option<nat>)

  /** What `save_to_session_state` puts into the session: the index's vectors stand in for its bytes. */
  datatype Snapshot<D> = Snapshot(vectors: seq<Vector>, documents: seq<D>, dimension: Option<nat>)

  /** The dict returned by `get_stats`. */
  datatype Stats = Stats(numDocuments: nat, dimension: Option<nat>, hasIndex: bool, indexSize: nat)

  /** A fresh store: no index, no documents, no dimension. */
  function Init<D>(): (s: Store<D>)
    ensures Valid(s) && s.index.None? && s.documents == [] && s.dimension.None?
  {
    Store(None, [], None)
  }

  /**
   * The store's invariant: without an index there is nothing stored; with
   * one, the vectors and documents are aligned and every vector has the
   * recorded dimension.
   */
  predicate Valid<D>(s: Store<D>) {
    match s.index
    case None => s.documents == [] && s.dimension.None?
    case Some(vs) => s.dimension.Some? && |vs| == |s.documents| && AllWidth(vs, s.dimension.value)
  }

  /** A batch of embeddings forms a 2-D array: every row has the width of the first. */
  predicate Rectangular(batch: seq<Vector>) {
    batch == [] || AllWidth(batch, |batch[0]|)
  }

  /**
   * The embeddings a caller may hand over with `docs`: one row per
   * document forming a 2-D array, or the empty array the embedding service
   * returns when it fails, whatever the documents.
   */
  predicate Batch<D>(batch: seq<Vector>, docs: seq<D>) {
    (|batch| == |docs| || batch == []) && Rectangular(batch)
  }

  /**
   * `create_index`: an empty batch is rejected and nothing changes;
   * otherwise the index holds exactly the batch, the documents are
   * replaced, and the dimension is the batch's width.
   */
  function CreateIndex<D>(s: Store<D>, batch: seq<Vector>, docs: seq<D>): (res: (Store<D>, bool))
    requires Batch(batch, docs)
    ensures !res.1 <==> batch == []
    ensures !res.1 ==> res.0 == s
    ensures res.1 ==> res.0 == Store(Some(batch), docs, Some(|batch[0]|)) && Valid(res.0)
  {
    if |batch| == 0 then (s, false)
    else (Store(Some(batch), docs, Some(|batch[0]|)), true)
  }

  /**
   * `add_documents`: without an index this is `create_index`. With one,
   * the empty failure array (not a 2-D array) and a batch whose rows do
   * not have the store's dimension are rejected before any document is
   * added; otherwise vectors and documents are appended after the
   * existing ones.
   */
  function AddDocuments<D>(s: Store<D>, batch: seq<Vector>, docs: seq<D>): (res: (Store<D>, bool))
    requires Valid(s)
    requires Batch(batch, docs)
    ensures Valid(res.0)
    ensures res.1 <==> batch != [] && (s.index.None? || AllWidth(batch, s.dimension.value))
    ensures s.index.None? ==> res == CreateIndex(s, batch, docs)
    ensures s.index.Some? && !res.1 ==> res.0 == s
    ensures s.index.Some? && res.1 ==>
      && res.0.index == Some(s.index.value + batch)
      && res.0.documents == s.documents + docs
      && res.0.dimension == s.dimension
  {
    match s.index
    case None => CreateIndex(s, batch, docs)
    case Some(vs) =>
      if batch == [] || !AllWidth(batch, s.dimension.value) then (s, false)
      else (Store(Some(vs + batch), s.documents + docs, s.dimension), true)
  }

  /** `get_stats`: a pure read of the state. */
  function GetStats<D>(s: Store<D>): (st: Stats)
    requires Valid(s)
    ensures st.numDocuments == |s.documents|
    ensures st.dimension == s.dimension
    ensures st.hasIndex <==> s.index.Some?
    ensures st.indexSize == if s.index.Some? then |s.index.value| else 0
    ensures st.indexSize == st.numDocuments
  {
    Stats(|s.documents|, s.dimension,
          s.index.Some?,
          match s.index case Some(vs) => |vs| case None => 0)
  }

  /**
   * The positions of the documents `search` reports: none for an empty
   * store, a non-positive `topK` or a query of the wrong width; otherwise
   * the `min(topK, |documents|)` nearest stored vectors, nearest first.
   */
  function SearchPositions<D>(s: Store<D>, query: Vector, topK: int): (ps: seq<nat>)
    requires Valid(s)
    ensures forall i :: 0 <= i < |ps| ==> ps[i] < |s.documents|
    ensures s.index.None? || s.documents == [] || topK <= 0 ==> ps == []
    ensures s.index.Some? && |query| != s.dimension.value ==> ps == []
    ensures s.index.Some? && |query| == s.dimension.value && topK > 0 ==>
      |ps| == if topK < |s.documents| then topK else |s.documents|
  {
    match s.index
    case None => []
    case Some(vs) =>
      if |s.documents| == 0 || |query| != s.dimension.value then []
      else TopK(Distances(vs, query), topK)
  }

  /** The distance from the query to the vector stored at `p`. */
  function DistanceAt<D>(s: Store<D>, query: Vector, p: nat): (d: int)
    requires Valid(s) && s.index.Some? && |query| == s.dimension.value && p < |s.documents|
    ensures d >= 0
  {
    SquaredL2(s.index.value[p], query)
  }

  /**
   * `search`: each reported position becomes the stored document paired
   * with the similarity `1 / (1 + distance)`.
   */
  function Search<D>(s: Store<D>, query: Vector, topK: int): (r: seq<(D, real)>)
    requires Valid(s)
    ensures |r| == |SearchPositions(s, query, topK)|
    ensures forall i :: 0 <= i < |r| ==>
      var p := SearchPositions(s, query, topK)[i];
      && r[i].0 == s.documents[p]
      && 0.0 < r[i].1 <= 1.0
      && r[i].1 == Similarity(DistanceAt(s, query, p))
  {
    var ps := SearchPositions(s, query, topK);
    seq(|ps|, i requires 0 <= i < |ps| => (s.documents[ps[i]], Similarity(DistanceAt(s, query, ps[i]))))
  }

  /**
   * Search reports the nearest stored vectors: positions are distinct,
   * distances ascend, similarities do not increase, and every document
   * left out is at least as far as every one reported.
   */
  lemma SearchIsNearest<D>(s: Store<D>, query: Vector, topK: int)
    requires Valid(s) && s.index.Some? && |query| == s.dimension.value
    ensures Distinct(SearchPositions(s, query, topK))
    ensures forall i :: 0 <= i && i + 1 < |SearchPositions(s, query, topK)| ==>
      DistanceAt(s, query, SearchPositions(s, query, topK)[i]) <=
      DistanceAt(s, query, SearchPositions(s, query, topK)[i + 1])
    ensures forall i :: 0 <= i && i + 1 < |Search(s, query, topK)| ==>
      Search(s, query, topK)[i].1 >= Search(s, query, topK)[i + 1].1
    ensures forall i, j ::
      (0 <= i < |SearchPositions(s, query, topK)| && 0 <= j < |s.documents| &&
       j !in SearchPositions(s, query, topK)) ==>
      DistanceAt(s, query, SearchPositions(s, query, topK)[i]) <= DistanceAt(s, query, j)
  {
    var ps := SearchPositions(s, query, topK);
    if s.documents != [] {
      var ds := Distances(s.index.value, query);
      TopKIsNearest(ds, topK);
      var r := Search(s, query, topK);
      forall i | 0 <= i && i + 1 < |r| ensures r[i].1 >= r[i + 1].1 {
        SimilarityAntitone(DistanceAt(s, query, ps[i]), DistanceAt(s, query, ps[i + 1]));
      }
    }
  }

  /** Save: nothing happens without an index; otherwise the session holds the store's contents. */
  function Save<D>(s: Store<D>, session: Option<Snapshot<D>>): (out: Option<Snapshot<D>>)
    ensures s.index.None? ==> out == session
    ensures s.index.Some? ==> out.Some? && out.value.documents == s.documents && out.value.dimension == s.dimension
  {
    match s.index
    case None => session
    case Some(vs) => Some(Snapshot(vs, s.documents, s.dimension))
  }

  /** Load: without saved data the store is unchanged and `False` is returned. */
  function Load<D>(s: Store<D>, session: Option<Snapshot<D>>): (res: (Store<D>, bool))
    ensures session.None? ==> res == (s, false)
    ensures session.Some? ==>
      && res.1
      && res.0.index.Some?
      && res.0.documents == session.value.documents
      && res.0.dimension == session.value.dimension
  {
    match session
    case None => (s, false)
    case Some(snap) => (Store(Some(snap.vectors), snap.documents, snap.dimension), true)
  }

  /** Saving a store with an index and loading it back, into any store, restores it exactly. */
  lemma SaveLoadRoundTrip<D>(s: Store<D>, t: Store<D>, session: Option<Snapshot<D>>)
    requires s.index.Some?
    ensures Load(t, Save(s, session)) == (s, true)
    ensures Valid(s) ==> GetStats(Load(t, Save(s, session)).0) == GetStats(s)
  {
  }

  /** `clear`: the store returns to its initial state and the saved session data is dropped. */
  function Clear<D>(s: Store<D>, session: Option<Snapshot<D>>): (res: (Store<D>, Option<Snapshot<D>>))
    ensures res.0 == Init() && res.1.None?
  {
    (Store(None, [], None), None)
  }

  /**
   * A store built from two one-document batches answers a one-result
   * query with the nearer document, and refuses a batch of the wrong
   * width and the empty failure array.
   */
  lemma TwoDocumentExample()
    ensures
      var s1 := AddDocuments(Init(), [[0, 0]], ["origin"]);
      var s2 := AddDocuments(s1.0, [[3, 4]], ["far"]);
      && s1.1 && s2.1
      && GetStats(s2.0) == Stats(2, Some(2), true, 2)
      && AddDocuments(s2.0, [[1, 2, 3]], ["wide"]) == (s2.0, false)
      && AddDocuments(s2.0, [], ["failed"]) == (s2.0, false)
      && Search(s2.0, [3, 3], 1) == [("far", 0.5)]
  {
    var s1 := AddDocuments(Init(), [[0, 0]], ["origin"]);
    var s2 := AddDocuments(s1.0, [[3, 4]], ["far"]);
    var ds := Distances(s2.0.index.value, [3, 3]);
    assert ds == [18, 1];
    assert Positions(2) == [0, 1];
    assert Positions(2)[1..] == [1];
    assert SortIndices(ds, [1]) == Insert(ds, 1, []) == [1];
    assert SortIndices(ds, [0, 1]) == Insert(ds, 0, [1]) == [1] + Insert(ds, 0, []);
    assert Rank(ds) == [1, 0];
    assert TopK(ds, 1) == [1];
    assert SearchPositions(s2.0, [3, 3], 1) == [1];
    assert Similarity(1) == 0.5;
    assert s1.1 && s2.1;
    assert GetStats(s2.0) == Stats(2, Some(2), true, 2);
    assert AddDocuments(s2.0, [[1, 2, 3]], ["wide"]) == (s2.0, false);
    assert Search(s2.0, [3, 3], 1) == [("far", 0.5)];
  }
}

=== FILE: wrappers.dfy ===
/** Optional values, standing in for Python's `None`. */
module Wrappers {

  datatype Option<+T> = None | Some(value: T)
}
